=== FILE: README.md ===
# Pastel Space Shooter — gameplay core in Dafny

This project models the gameplay rules of the single-file pygame arcade
shooter `Assignment_20/space_shooter.py`, treating them as a pure state machine.
A session (`Game.Session`) holds:
- the player ship;
- the bullet, enemy and particle groups, as sequences in insertion order;
- the parallax stars;
- score and lives;
- the spawn timer, the pause and run flags, and the starfield speed factor.

One pass of the main loop is `Game.Frame`. It handles the frame's events in
order: the pause key flips `paused`, and quit or escape clears `running`. If
the game is not paused, it then runs `Game.Tick`:
1. Eases the starfield speed factor.
2. Advances the spawn timer, adding one enemy when the score-driven interval
   is due.
3. Moves and clamps the ship and counts down its fire cooldown.
4. Fires a two-bullet volley.
5. Updates and expires bullets, enemies and particles.
6. Moves and wraps the stars.
7. Runs the two collision passes:
   - bullets against enemies, with `groupcollide` semantics: enemies are
     taken in group order, and each hit enemy takes every still-alive bullet
     it overlaps;
   - enemies against the player: however many enemies overlap the ship,
     one life is lost;
   - losing the last life triggers the soft reset.

Random draws, `math.sin` and `Vector2.normalize` come in as parameters.
`Game.Chance` carries:
- the spawn seed;
- a sine bounded by one;
- a `normalize` function;
- the particle draws;
- the fresh star columns.

For a non-zero vector, `Sprites.IsUnitOf` says the result is the unit
vector pointing the same way, which is what `Vector2.normalize` returns.
When the held keys give a zero vector (no key, or opposite keys that
cancel), the ship's update never calls `normalize` (on a zero vector it
raises an error), and the movement vector stays zero.
`Game.Normalizes` says that a given `normalize` behaves like
`Vector2.normalize` on every non-zero vector.

Floats are Dafny `real`s. Rectangles keep the sizes of the initial images:
- ship 48×36;
- bullet 6×14;
- enemy 42×30.

They are centred on the sprite's position. `Rect.colliderect` is strict
interior intersection.

The session invariant `Invariants.Inv` holds from `Game.Start` on and is kept
by every frame. It says:
- the ship is on screen;
- the cooldown lies in [0, 0.18];
- lives lie in 1..3;
- the score is a non-negative multiple of 10;
- every bullet climbs at 700 px/s and is above its kill line;
- every enemy has an in-range speed and wobble and is above its kill line;
- every particle is live with alpha in [0, 255];
- every star is inside its band.

A few places where the code behaves differently from a first reading are
modelled as the code does it:
- The bullet kill test is on the rectangle's bottom edge (`bottom < -20`),
  i.e. a centre above y = -27. A bullet centred at y = -25 is therefore
  still alive (`Scenarios.BulletKillLine`).
- The fade is `int(...)`, which truncates. Halfway through a 0.5 s life the
  alpha is 127, not a rounded 128 (`Scenarios.HalfwayAlpha`).
- The spawn interval is computed from the score before this tick's hits.
- In the frame where quit arrives, the tick still runs.
- On the reset, the enemies that still get an explosion are the ones left
  after the player pass.

## Model

| member | source | states |
|---|---|---|
| Util.Clamp | Assignment_20/space_shooter.py:56-57 | the result is at least `a`; with `a <= b` it lies in [a, b], is `v` itself when `v` is in range, and is the violated bound otherwise |
| Util.Trunc | Assignment_20/space_shooter.py:202 | `int()` of a float rounds toward zero: for `x >= 0` the result is the largest integer not above `x`, for negative `x` the smallest not below it |
| Util.ClampedStep | Assignment_20/space_shooter.py:113-116 | a clamped step of speed `k` with direction component in [-1, 1], taken from inside the interval, moves the coordinate by at most `k * dt` |
| Geometry.Centered | Assignment_20/space_shooter.py:117 | assigning `rect.center` keeps the size and puts the centre exactly at the point |
| Geometry.OverlapsCentered | Assignment_20/space_shooter.py:354 | two centred rectangles collide exactly when their centres are closer than half the summed widths and half the summed heights |
| Groups.Filter | Assignment_20/space_shooter.py:354 | killing the members that fail a test leaves a group no larger than before, all of whose members pass |
| Groups.FilterMembers | Assignment_20/space_shooter.py:354 | every kept member was in the group, and every member that passes the test is kept |
| Groups.FilterSplit | Assignment_20/space_shooter.py:354 | the members kept by a test and by its negation together make up the group exactly, as a multiset |
| Groups.FilterConcat | Assignment_20/space_shooter.py:354 | killing members of two groups joined leaves the two filtered groups joined, so group order is kept |
| Groups.UpdateGroup | Assignment_20/space_shooter.py:338-340 | `Group.update` with self-killing sprites: each survivor is some member's updated self and not expired, every member whose update leaves it unexpired survives, and the result is exactly the updated members that are not expired, in group order |
| Groups.UpdateGroupOrder | Assignment_20/space_shooter.py:338-340 | the update goes member by member: two groups joined update to the two updated groups joined, a single member survives, moved, exactly when its step does not expire it, and no member appears more often than it did |
| Sprites.UpdatePlayer | Assignment_20/space_shooter.py:99-124 | after the update the ship is inside [24, 876] × [18, 582]; the cooldown is never negative; the ship can shoot exactly when the old timer was at most `dt`; otherwise the timer dropped by exactly `dt` |
| Sprites.UnitOfAxis | Assignment_20/space_shooter.py:101-111 | when only one axis key direction is held, normalising leaves the movement vector unchanged |
| Sprites.UnitBounded | Assignment_20/space_shooter.py:110-112 | each component of the normalised direction lies in [-1, 1] |
| Sprites.PlayerClampsEachAxis | Assignment_20/space_shooter.py:112-117 | each coordinate of the new centre is the old one plus `dt * PLAYER_SPEED` times the direction component, clamped to its own axis range independently of the other axis |
| Sprites.PlayerMovesFreely | Assignment_20/space_shooter.py:112-117 | a step that lands on screen is taken in full, unclamped |
| Sprites.PlayerSlidesAlongWall | Assignment_20/space_shooter.py:113-117 | the axes are clamped separately: pushed right and up against the right wall, the ship stays at the wall and still moves up by the full step |
| Sprites.PlayerSpeedLimit | Assignment_20/space_shooter.py:112-116 | from an on-screen position, the ship moves at most `PLAYER_SPEED * dt` along each axis per update |
| Sprites.StepLimitX | Assignment_20/space_shooter.py:113-115 | the horizontal part of the speed limit |
| Sprites.StepLimitY | Assignment_20/space_shooter.py:113-116 | the vertical part of the speed limit |
| Sprites.Fire | Assignment_20/space_shooter.py:330-335 | with fire held and the cooldown run out, the timer becomes 0.18 (so no second shot), and exactly two bullets are added at the ship's top middle ∓ 10 px, each with velocity (0, -700); otherwise nothing changes; position and velocity never change |
| Sprites.Volley | Assignment_20/space_shooter.py:330-334 | the two bullets of a volley; their positions and velocities are stated by `Sprites.Fire` and `Scenarios.FirstVolley` |
| Sprites.MoveBullet | Assignment_20/space_shooter.py:143-145 | one bullet step; `Sprites.BulletGoneByCentre` and `Sprites.UpdateBullets` state its kill test and `Invariants.BulletsStayOk` that the climb rate is kept |
| Sprites.BulletGoneByCentre | Assignment_20/space_shooter.py:145-146 | the bottom-edge kill test is the same as the centre lying above y = -27 |
| Sprites.UpdateBullets | Assignment_20/space_shooter.py:143-147 | a bullet survives the group update if and only if its moved rectangle's bottom is not above -20; survivors are moved members |
| Sprites.UpdateBulletsOrder | Assignment_20/space_shooter.py:338 | bullets update one by one and keep their group order |
| Sprites.MoveEnemy | Assignment_20/space_shooter.py:170-175 | one enemy step; `Sprites.EnemyDrift` states how far it falls and drifts |
| Sprites.EnemyDrift | Assignment_20/space_shooter.py:170-175 | an enemy falls by exactly `speed * dt` and, with the sine bounded by one, drifts sideways by at most `osc_amp * dt`; speed and amplitude are kept |
| Sprites.UpdateEnemies | Assignment_20/space_shooter.py:170-177 | an enemy survives if and only if its moved rectangle's top is not below `HEIGHT + 40`; survivors are moved members |
| Sprites.UpdateEnemiesOrder | Assignment_20/space_shooter.py:339 | enemies update one by one and keep their group order |
| Sprites.Alpha | Assignment_20/space_shooter.py:202 | for an age in [0, lifetime) the fade lies in [0, 255], and it is 255 at age 0 |
| Sprites.AlphaFades | Assignment_20/space_shooter.py:202 | the fade never brightens as the particle ages |
| Sprites.StepParticle | Assignment_20/space_shooter.py:194-204 | age grows by `dt` and lifetime is kept; the particle is expired exactly when the new age reaches its lifetime; a live one has alpha in [0, 255] |
| Sprites.UpdateParticles | Assignment_20/space_shooter.py:194-198 | a particle survives if and only if its aged value is below its lifetime; survivors are updated members |
| Sprites.UpdateParticlesOrder | Assignment_20/space_shooter.py:340 | particles update one by one and keep their group order |
| Starfield.SownIsOk | Assignment_20/space_shooter.py:230-238 | every star drawn by `create_starfield` lies in the band, with the layer and size ranges it was drawn with |
| Starfield.UpdateStar | Assignment_20/space_shooter.py:215-220 | size and layer never change, and the star never ends below `HEIGHT + 10` |
| Starfield.StarFallsOrWraps | Assignment_20/space_shooter.py:217-220 | a star falls by `(20 + 40·layer)·dt·speed_factor` and keeps its column, or, once past `HEIGHT + 10`, reappears at y = -10 in the fresh column |
| Starfield.UpdateStarOk | Assignment_20/space_shooter.py:215-220 | with forward time, a non-negative speed factor and an on-screen fresh column, a star stays in its band |
| Starfield.UpdateStars | Assignment_20/space_shooter.py:343-344 | the star loop keeps the number of stars and gives star `i` its own step with the `i`-th fresh column; `Invariants.StarsStayOk` states that every star stays in its band |
| Manager.SpawnInterval | Assignment_20/space_shooter.py:321 | the interval is at least 0.35 and, for a non-negative score, at most 1.0; it is 1.0 at score 0 and 0.35 from score 35 on |
| Manager.SpawnIntervalMonotone | Assignment_20/space_shooter.py:321 | a higher score never gives a longer interval |
| Manager.SpawnEnemy | Assignment_20/space_shooter.py:242-248 | an enemy from the spawn draws; `Manager.SpawnEnemyOk` states its ranges and that it starts above the screen |
| Manager.SpawnEnemyOk | Assignment_20/space_shooter.py:242-248 | an enemy spawned from in-range draws is in range and starts wholly above the screen |
| Manager.Spawn | Assignment_20/space_shooter.py:320-324 | the timer ends below the interval; when the timer plus `dt` reaches the interval exactly one enemy is appended and the timer restarts at 0; otherwise the enemies are unchanged and the timer grows by `dt` |
| Manager.SpawnAtMostOne | Assignment_20/space_shooter.py:320-324 | the spawn step adds at most one enemy, one exactly when due, and the timer stays non-negative |
| Manager.NewParticle | Assignment_20/space_shooter.py:181-188 | a particle from its draws; `Manager.Explosions` states that every new particle starts with age 0 and alpha 255, and `Manager.ExplosionsOk` that particles from in-range draws are live with alpha in [0, 255] |
| Manager.Explosion | Assignment_20/space_shooter.py:251-254 | one burst is exactly 18 particles, the `i`-th built at the point from the `i`-th draw |
| Manager.Explosions | Assignment_20/space_shooter.py:251-254 | one 18-particle burst per point, all fresh (age 0, alpha 255) and placed at one of the points |
| Manager.ExplosionsLayout | Assignment_20/space_shooter.py:251-254 | the `k`-th burst takes the `k`-th block of 18 particles, and its `i`-th particle starts at the `k`-th point with the draw for particle `i` of burst `k` |
| Manager.ExplosionsOk | Assignment_20/space_shooter.py:181-188 | particles built from in-range draws are live, with lifetimes in [0.36, 0.6] and alpha in [0, 255] |
| Collide.Sweep | Assignment_20/space_shooter.py:347 | the surviving and the shot enemies together number exactly the enemies that went in |
| Collide.RestShorter | Assignment_20/space_shooter.py:347 | an enemy removes bullets exactly when it overlaps one of the bullets still alive |
| Collide.HitIffShorter | Assignment_20/space_shooter.py:347 | the enemy's overlapping bullets are non-empty exactly when removing them shrinks the group |
| Collide.SweepBullets | Assignment_20/space_shooter.py:347 | the surviving bullets are exactly those, in order, that overlap no enemy |
| Collide.SweepPartition | Assignment_20/space_shooter.py:347 | survivors and shot enemies together are the enemy group, as a multiset |
| Collide.SweepShotOverlapped | Assignment_20/space_shooter.py:347-348 | every shot enemy overlapped some bullet |
| Collide.SweepUntouchedSurvive | Assignment_20/space_shooter.py:347 | an enemy that overlaps no bullet survives |
| Collide.SweepSurvivorsLate | Assignment_20/space_shooter.py:347 | a surviving enemy that overlaps a bullet of the group shares that bullet with some shot enemy (the order between the two is stated by `Collide.SweepSurvivorsEarlier`) |
| Collide.SweepOrder | Assignment_20/space_shooter.py:347 | the group-order rule in closed form: the shot enemies are exactly, in order, those that overlap a bullet no enemy ahead of them overlaps, and the survivors are exactly the others, in order |
| Collide.DoomedHead | Assignment_20/space_shooter.py:347 | the first enemy in group order is shot exactly when it overlaps some bullet |
| Collide.DoomedShift | Assignment_20/space_shooter.py:347 | after the first enemy, each enemy meets only the bullets the enemies ahead of it left alive |
| Collide.SweepSurvivorsEarlier | Assignment_20/space_shooter.py:347 | a survivor that overlaps a bullet does so because an enemy ahead of it in group order was shot by that same bullet |
| Collide.SweepBulletsSpent | Assignment_20/space_shooter.py:347 | every removed bullet overlapped some shot enemy |
| Collide.GroupCollide | Assignment_20/space_shooter.py:347 | the enemy-at-a-time loop that removes bullets from a shrinking group computes exactly the survivors, the remaining bullets and the shot enemies of the sweep |
| Collide.BulletEnemyPass | Assignment_20/space_shooter.py:347 | the bullet-enemy pass is the sweep with the rectangle test; the `Collide.Sweep*` lemmas state its outcome |
| Collide.EnemyPlayerPass | Assignment_20/space_shooter.py:354 | enemies kept do not touch the ship and enemies removed do; together they account for every enemy; nothing is removed exactly when the group is unchanged; kept and removed enemies are the group filtered by "does not touch" and by "touches", each in group order |
| Collide.PlayerPassOrder | Assignment_20/space_shooter.py:354 | the player pass goes enemy by enemy in group order: a group that is two groups joined keeps and removes the two groups' enemies joined, and a single enemy stays exactly when it does not touch the ship |
| Collide.PlayerPassPartition | Assignment_20/space_shooter.py:354 | kept and removed enemies together are the enemy group, as a multiset |
| Game.HandleEventsEffect | Assignment_20/space_shooter.py:298-305 | the event loop flips `paused` once per pause press, clears `running` exactly when a quit or escape arrived, and changes nothing else |
| Game.HandleEvent | Assignment_20/space_shooter.py:299-305 | one event; `Game.HandleEventsEffect` states the effect of the loop |
| Game.HandleEvents | Assignment_20/space_shooter.py:298-305 | the event loop in order; its contract is `Game.HandleEventsEffect` |
| Game.EaseSpeedBounded | Assignment_20/space_shooter.py:311-317 | with no horizontal key held the factor stays on its side of 1 and never moves further from it, so it moves towards 1 without overshooting, and it is exactly 1 once `dt * 3 >= 1`; a factor in [0.75, 1.25] stays there |
| Game.EaseSpeed | Assignment_20/space_shooter.py:311-317 | the speed-factor step; `Game.EaseSpeedBounded` states its bounds |
| Game.Start | Assignment_20/space_shooter.py:275-283 | a new session; `Invariants.StartOk` states that it satisfies the session invariant |
| Game.Centers | Assignment_20/space_shooter.py:351 | an enemy's rectangle centre is its position |
| Game.DirectionIsUnit | Assignment_20/space_shooter.py:101-111 | with a faithful `normalize`, the direction the ship moves in is the normalised movement vector, and zero when the held keys give a zero vector (none held, or opposite keys cancelling) |
| Game.Direction | Assignment_20/space_shooter.py:101-111 | the direction of the ship's step; `Game.DirectionIsUnit` states it is the normalised movement vector |
| Game.Advance | Assignment_20/space_shooter.py:311-344 | the steps before the collisions; `Invariants.AdvanceOk` and `Outcomes.AdvanceFields` state their effect |
| Game.Resolve | Assignment_20/space_shooter.py:346-366 | the collision step; `Outcomes.ResolveOutcome`, `Invariants.ResolveOk` and `Invariants.BlastPoints` state its effect |
| Game.Blasts | Assignment_20/space_shooter.py:348-366 | the points that explode in the collision step; `Invariants.BlastPoints` states them against the rules |
| Game.Judge | Assignment_20/space_shooter.py:354-357 | the player-pass verdict; `Game.JudgeIff` states when each verdict is given |
| Game.JudgeIff | Assignment_20/space_shooter.py:354-357 | the ship is unhurt exactly when no enemy overlaps it, and the session restarts exactly when some enemy overlaps it at the last life |
| Game.Tick | Assignment_20/space_shooter.py:309-366 | one unpaused tick; `Invariants.TickOk` and the `Outcomes.Tick*` lemmas state its effect |
| Game.Frame | Assignment_20/space_shooter.py:296-366 | one frame: the event loop, then a tick unless paused; `Invariants.FrameOk` and `Outcomes.FramePaused` state its effect |
| Invariants.StartOk | Assignment_20/space_shooter.py:275-283 | a new session around a sown starfield satisfies the session invariant |
| Invariants.PlayerStaysOk | Assignment_20/space_shooter.py:124-130 | update plus shooting keep the ship on screen and the cooldown in [0, 0.18] |
| Invariants.BulletsStayOk | Assignment_20/space_shooter.py:338 | after the volley and the group update, every bullet climbs at 700 px/s and is above its kill line |
| Invariants.EnemiesStayOk | Assignment_20/space_shooter.py:339 | after the group update, every enemy keeps its speed and amplitude and is above its kill line |
| Invariants.ParticlesStayOk | Assignment_20/space_shooter.py:340 | after the group update, every particle is live with alpha in [0, 255] |
| Invariants.StarsStayOk | Assignment_20/space_shooter.py:343-344 | after the star loop every star is still in its band |
| Invariants.SpawnStaysOk | Assignment_20/space_shooter.py:320-324 | the spawn step keeps the timer non-negative and every enemy in range |
| Invariants.AdvanceOk | Assignment_20/space_shooter.py:311-344 | the steps before the collisions keep the session invariant |
| Invariants.BulletPassShrinks | Assignment_20/space_shooter.py:347 | the bullet pass only removes enemies and bullets |
| Invariants.BlastPoints | Assignment_20/space_shooter.py:348-366 | the blast points are the shot enemies' centres in group order; then the ship's centre if an enemy rammed it; then at the last life the ship's centre again and the centres of the enemies still on screen |
| Invariants.ResolveParticles | Assignment_20/space_shooter.py:349-366 | the collision step keeps every old particle in order and appends one burst per blast point |
| Invariants.ResolveVerdict | Assignment_20/space_shooter.py:349-362 | under each verdict, the score and lives the collision step sets, and that it leaves the ship, timers and stars alone |
| Invariants.ParticlesAppendedOk | Assignment_20/space_shooter.py:251-254 | appending bursts from in-range draws to live particles leaves only live particles |
| Invariants.ResolveShrinks | Assignment_20/space_shooter.py:347-366 | the enemies and bullets after the collision step were all there before it |
| Invariants.ResolveCounters | Assignment_20/space_shooter.py:349-362 | the collision step leaves the ship, timers and stars alone, keeps lives in 1..3, and keeps the score a non-negative multiple of 10 |
| Invariants.ResolveOk | Assignment_20/space_shooter.py:347-366 | the collision step keeps the session invariant |
| Invariants.TickOk | Assignment_20/space_shooter.py:309-366 | an unpaused tick keeps the session invariant |
| Invariants.FrameOk | Assignment_20/space_shooter.py:298-366 | every frame, paused or not, keeps the session invariant |
| Outcomes.PlayerPassKeeps | Assignment_20/space_shooter.py:354 | the enemies the player pass keeps are exactly those not touching the ship |
| Outcomes.ResolveOutcome | Assignment_20/space_shooter.py:347-366 | no enemy on the ship: lives and the surviving groups are kept and the score rises by 10 per shot enemy; one or more: exactly one life is lost and exactly the touching enemies go, the rest staying as the player pass leaves them, in group order; at the last life: lives 3, score 0, no enemies, no bullets |
| Outcomes.TickLives | Assignment_20/space_shooter.py:354-362 | a tick keeps the lives, loses exactly one, or restarts the session |
| Outcomes.TickScore | Assignment_20/space_shooter.py:348-349 | when an enemy reaches the ship at the last life, the score after the tick is 0; otherwise it is the old score plus 10 per enemy shot this tick |
| Outcomes.TickSpawnsAtMostOne | Assignment_20/space_shooter.py:320-324 | a tick adds at most one enemy, and none when the spawn timer is not due |
| Outcomes.TickSpawnTimer | Assignment_20/space_shooter.py:320-323 | after a tick the spawn timer is 0 if an enemy was due, otherwise the old timer plus `dt` |
| Outcomes.AdvanceFields | Assignment_20/space_shooter.py:320-340 | the steps before the collisions leave score and lives alone and carry the spawn step's timer and updated particles |
| Outcomes.TickParticles | Assignment_20/space_shooter.py:340-366 | the particles surviving their update stay, in order, ahead of this tick's bursts, and every added particle is fresh |
| Outcomes.TickSpeedLimit | Assignment_20/space_shooter.py:110-116 | with a faithful `normalize`, a tick moves an on-screen ship by at most `PLAYER_SPEED * dt` along each axis, diagonals included |
| Outcomes.FramePaused | Assignment_20/space_shooter.py:304-309 | a paused frame changes only the pause and run flags; an unpaused one is exactly one tick after the event loop |
| Scenarios.FirstVolley | Assignment_20/space_shooter.py:330-335 | the first volley from the start position leaves at (440, 482) and (460, 482) |
| Scenarios.OneBulletOneKill | Assignment_20/space_shooter.py:347 | two stacked enemies over one bullet: the first in group order is shot, the bullet goes with it, and the second survives |
| Scenarios.BulletKillLine | Assignment_20/space_shooter.py:146 | a bullet centred at y = -25 is kept, one at y = -28 is removed |
| Scenarios.HalfwayAlpha | Assignment_20/space_shooter.py:202 | halfway through a 0.5 s life the fade is 127 |
| Scenarios.SpawnPace | Assignment_20/space_shooter.py:321 | the interval is 1.0 at score 0, 0.8 at score 10 and 0.35 at score 100 |
| Scenarios.DoublePause | Assignment_20/space_shooter.py:304-305 | two pause presses in one frame cancel out |
| Scenarios.LastLifeRestarts | Assignment_20/space_shooter.py:354-366 | an enemy on the ship at the last life restarts the session |

## Left out

- Rendering and assets are not modelled: `make_image`, `rounded_rect`, `draw_hud`, `Star.draw`, the background gradient, the drawing block and the `rotozoom` tilt. They only draw.
- Event polling, `clock.tick`, display setup and `sys.exit` are not modelled. The events, the held keys and `dt` are inputs to `Game.Frame`.
- Random draws become parameters with their documented ranges, and their distributions are not modelled:
  - the enemy position, speed, phase and amplitude (`Manager.SeedOk`);
  - the particle direction, speed and lifetime (`Manager.SparkOk`);
  - the star columns;
  - the starfield layers and sizes (`Starfield.Sown`).
- Trigonometry becomes parameters. `math.sin` is a given function bounded by one. The particle velocity is given directly. `Vector2.normalize` is a given function. The invariant holds whatever it returns. The speed limit assumes it satisfies `Game.Normalizes`.
- Floats become exact reals. Rounding error is not modelled.
- pygame stores `Rect` coordinates as integers, and assigning `rect.center` truncates the position. The model centres rectangles exactly on the real position, so collisions and kill lines may differ by under a pixel.
- The phase draw `random.random() * 2 * pi` is bounded by the decimal 6.2832 rather than by 2π. The phase only feeds the abstract sine.
- The particle's image size (`random.randint(2, 6)`) and its rect are not modelled. They only affect drawing.
- `last_spawn` in `main` is assigned and never used, so it is not modelled.
- `Assignment_21/mysite/blog/views.py` and `forms.py` are not part of this model. They are thin web view and form wrappers, and the models module they rely on is not part of this model either.

=== FILE: collide.dfy ===
/** The two collision passes of a frame: bullets against enemies
    (`groupcollide(enemies, bullets, True, True)`) and enemies against the
    player (`spritecollide(player, enemies, True, collide_rect)`). */
module Collide {
  import opened Geometry
  import opened Groups
  import opened Sprites

  predicate Hits(e: Enemy, b: Bullet) { Overlaps(EnemyRect(e), BulletRect(b)) }

  /** Outcome of a sweep of enemies over bullets: surviving enemies and
      bullets, and the enemies that were shot, each in group order. */
  datatype Clash<E, B> = Clash(enemies: seq<E>, bullets: seq<B>, shot: seq<E>)

  /** `groupcollide(enemies, bullets, True, True)` for an overlap test
      `hits`: enemies are visited in group order; each is tested against the
      bullets still alive, and if it overlaps any it dies and so do all of
      those bullets, which are then gone for the enemies after it. */
  function Sweep<E, B>(es: seq<E>, bs: seq<B>, hits: (E, B) -> bool): (r: Clash<E, B>)
    ensures |r.enemies| + |r.shot| == |es|
    decreases |es|
  {
    if |es| == 0 then Clash([], bs, [])
    else
      var e := es[0];
      var rest := Filter(bs, Misses(hits, e));
      var tail := Sweep(es[1..], rest, hits);
      if |rest| < |bs| then Clash(tail.enemies, tail.bullets, [e] + tail.shot)
      else Clash([e] + tail.enemies, tail.bullets, tail.shot)
  }

  /** `e` overlaps none of `bs`. */
  predicate Untouched<E, B>(e: E, bs: seq<B>, hits: (E, B) -> bool)
  {
    forall i :: 0 <= i < |bs| ==> !hits(e, bs[i])
  }

  /** The bullets `e` does not overlap. */
  function Misses<E, B>(hits: (E, B) -> bool, e: E): B -> bool { b => !hits(e, b) }

  /** The bullets no enemy of `es` overlaps. */
  function ClearOf<E, B>(es: seq<E>, hits: (E, B) -> bool): B -> bool { b => Clear(es, b, hits) }

  /** The bullet-enemy pass of the frame. */
  function BulletEnemyPass(es: seq<Enemy>, bs: seq<Bullet>): Clash<Enemy, Bullet>
  {
    Sweep(es, bs, Hits)
  }

  /** No enemy of `es` overlaps `b`. */
  predicate Clear<E, B>(es: seq<E>, b: B, hits: (E, B) -> bool)
  {
    forall i :: 0 <= i < |es| ==> !hits(es[i], b)
  }

  /** An enemy dies exactly when some still-alive bullet overlaps it. */
  lemma RestShorter<E, B>(e: E, bs: seq<B>, hits: (E, B) -> bool)
    ensures |Filter(bs, Misses(hits, e))| < |bs| <==> exists i :: 0 <= i < |bs| && hits(e, bs[i])
  {
    var rest := Filter(bs, Misses(hits, e));
    if exists i :: 0 <= i < |bs| && hits(e, bs[i]) {
      var i :| 0 <= i < |bs| && hits(e, bs[i]);
      assert bs[i] !in rest;
      if |rest| == |bs| {
        FilterMultiset(bs, Misses(hits, e));
        MultisetSameSize(rest, bs);
      }
    } else {
      FilterAll(bs, Misses(hits, e));
    }
  }

  lemma MultisetSameSize<T>(a: seq<T>, b: seq<T>)
    requires multiset(a) <= multiset(b) && |a| == |b|
    ensures multiset(a) == multiset(b)
  {
    var d := multiset(b) - multiset(a);
    assert multiset(b) == multiset(a) + d;
    assert |multiset(b)| == |multiset(a)| + |d|;
  }

  /** A bullet survives the pass exactly when no enemy overlaps it. */
  lemma {:induction false} SweepBullets<E, B>(es: seq<E>, bs: seq<B>, hits: (E, B) -> bool)
    ensures Sweep(es, bs, hits).bullets == Filter(bs, ClearOf(es, hits))
    decreases |es|
  {
    if |es| == 0 {
      FilterAll(bs, ClearOf(es, hits));
    } else {
      var e := es[0];
      var rest := Filter(bs, Misses(hits, e));
      SweepBullets(es[1..], rest, hits);
      FilterFilter(bs, Misses(hits, e), ClearOf(es[1..], hits));
      forall i | 0 <= i < |bs|
        ensures Both(Misses(hits, e), ClearOf(es[1..], hits))(bs[i]) == ClearOf(es, hits)(bs[i])
      {
        var b := bs[i];
        if Clear(es, b, hits) {
          forall j | 0 <= j < |es[1..]|
            ensures !hits(es[1..][j], b)
          {
            assert es[1..][j] == es[j + 1];
          }
        }
        if !hits(e, b) && Clear(es[1..], b, hits) {
          forall j | 0 <= j < |es|
            ensures !hits(es[j], b)
          {
            if j > 0 {
              assert es[j] == es[1..][j - 1];
            }
          }
        }
      }
      FilterExt(bs, Both(Misses(hits, e), ClearOf(es[1..], hits)), ClearOf(es, hits));
    }
  }

  /** The pass splits the enemies into survivors and shot ones. */
  lemma {:induction false} SweepPartition<E, B>(es: seq<E>, bs: seq<B>, hits: (E, B) -> bool)
    ensures multiset(Sweep(es, bs, hits).enemies) + multiset(Sweep(es, bs, hits).shot)
         == multiset(es)
    decreases |es|
  {
    if |es| > 0 {
      SweepPartition(es[1..], Filter(bs, Misses(hits, es[0])), hits);
      assert es == [es[0]] + es[1..];
    }
  }

  /** Every shot enemy overlapped one of the bullets. */
  lemma {:induction false} SweepShotOverlapped<E, B>(es: seq<E>, bs: seq<B>, hits: (E, B) -> bool)
    ensures var r := Sweep(es, bs, hits);
      forall j :: 0 <= j < |r.shot| ==> !Untouched(r.shot[j], bs, hits)
    decreases |es|
  {
    if |es| > 0 {
      var e0 := es[0];
      var rest := Filter(bs, Misses(hits, e0));
      var r := Sweep(es, bs, hits);
      var tail := Sweep(es[1..], rest, hits);
      SweepShotOverlapped(es[1..], rest, hits);
      assert var r' := Sweep(es[1..], rest, hits);
        forall j :: 0 <= j < |r'.shot| ==> !Untouched(r'.shot[j], rest, hits);
      RestShorter(e0, bs, hits);
      FilterMembers(bs, Misses(hits, e0));
      var off := if |rest| < |bs| then 1 else 0;
      assert r.shot == (if |rest| < |bs| then [e0] else []) + tail.shot;
      forall j | 0 <= j < |r.shot|
        ensures !Untouched(r.shot[j], bs, hits)
      {
        if j < off {
          assert r.shot[j] == e0;
        } else {
          var t := j - off;
          assert r.shot[j] == tail.shot[t];
          assert !Untouched(tail.shot[t], rest, hits);
          var k :| 0 <= k < |rest| && hits(tail.shot[t], rest[k]);
          assert rest[k] in bs;
          var i :| 0 <= i < |bs| && bs[i] == rest[k];
        }
      }
    }
  }

  /** An enemy that overlaps none of the bullets survives. */
  lemma {:induction false} SweepUntouchedSurvive<E, B>(es: seq<E>, bs: seq<B>, hits: (E, B) -> bool)
    ensures var r := Sweep(es, bs, hits);
      forall j :: 0 <= j < |es| && Untouched(es[j], bs, hits) ==> es[j] in r.enemies
    decreases |es|
  {
    if |es| > 0 {
      var e0 := es[0];
      var rest := Filter(bs, Misses(hits, e0));
      var r := Sweep(es, bs, hits);
      var tail := Sweep(es[1..], rest, hits);
      SweepUntouchedSurvive(es[1..], rest, hits);
      RestShorter(e0, bs, hits);
      FilterMembers(bs, Misses(hits, e0));
      forall j | 0 <= j < |es| && Untouched(es[j], bs, hits)
        ensures es[j] in r.enemies
      {
        if j == 0 {
          assert r.enemies == [e0] + tail.enemies;
        } else {
          assert es[j] == es[1..][j - 1];
          assert Untouched(es[j], rest, hits);
          assert es[j] in tail.enemies;
        }
      }
    }
  }

  /** One step of the sweep: the first enemy against all bullets. */
  lemma SweepStep<E, B>(es: seq<E>, bs: seq<B>, hits: (E, B) -> bool)
    requires |es| > 0
    ensures var rest := Filter(bs, Misses(hits, es[0]));
      var tail := Sweep(es[1..], rest, hits);
      Sweep(es, bs, hits) ==
        if |rest| < |bs| then Clash(tail.enemies, tail.bullets, [es[0]] + tail.shot)
        else Clash([es[0]] + tail.enemies, tail.bullets, tail.shot)
  {
  }

  /** Some enemy of `es` overlaps `b`, which therefore is not clear. */
  lemma NotClear<E, B>(es: seq<E>, k: nat, b: B, hits: (E, B) -> bool)
    requires k < |es| && hits(es[k], b)
    ensures !Clear(es, b, hits)
  {
  }

  /** A surviving enemy that overlaps a bullet met it only after an earlier
      enemy had already used it up. */
  lemma {:induction false} SweepSurvivorsLate<E, B>(es: seq<E>, bs: seq<B>, hits: (E, B) -> bool)
    ensures var r := Sweep(es, bs, hits);
      forall j, b :: 0 <= j < |r.enemies| && b in bs && hits(r.enemies[j], b) ==> !Clear(r.shot, b, hits)
    decreases |es|
  {
    if |es| > 0 {
      var e0 := es[0];
      var rest := Filter(bs, Misses(hits, e0));
      var r := Sweep(es, bs, hits);
      var tail := Sweep(es[1..], rest, hits);
      SweepStep(es, bs, hits);
      SweepSurvivorsLate(es[1..], rest, hits);
      FilterMembers(bs, Misses(hits, e0));
      forall j, b | 0 <= j < |r.enemies| && b in bs && hits(r.enemies[j], b)
        ensures !Clear(r.shot, b, hits)
      {
        if hits(e0, b) {
          var i :| 0 <= i < |bs| && bs[i] == b;
          RestShorter(e0, bs, hits);
          NotClear(r.shot, 0, b, hits);
        } else {
          var i :| 0 <= i < |bs| && bs[i] == b;
          assert b in rest;
          var off := if |rest| < |bs| then 0 else 1;
          // the first enemy survived only if it overlaps no bullet, so j
          // indexes an enemy of the tail
          if !(|rest| >= |bs| && j == 0) {
            assert r.enemies[j] == tail.enemies[j - off];
            assert !Clear(tail.shot, b, hits);
            var k :| 0 <= k < |tail.shot| && hits(tail.shot[k], b);
            NotClear(r.shot, k + 1 - off, b, hits);
          }
        }
      }
    }
  }

  /** Every bullet that died overlapped an enemy that was shot. */
  lemma SweepBulletsSpent<E, B>(es: seq<E>, bs: seq<B>, hits: (E, B) -> bool)
    ensures var r := Sweep(es, bs, hits);
      forall b :: b in bs && b !in r.bullets ==> !Clear(r.shot, b, hits)
  {
    var r := Sweep(es, bs, hits);
    SweepBullets(es, bs, hits);
    SweepPartition(es, bs, hits);
    SweepSurvivorsLate(es, bs, hits);
    FilterMembers(bs, ClearOf(es, hits));
    forall b | b in bs && b !in r.bullets
      ensures !Clear(r.shot, b, hits)
    {
      var i :| 0 <= i < |bs| && bs[i] == b;
      assert !ClearOf(es, hits)(bs[i]);
      var j :| 0 <= j < |es| && hits(es[j], b);
      assert es[j] in multiset(r.enemies) + multiset(r.shot);
      if es[j] in r.enemies {
        var j' :| 0 <= j' < |r.enemies| && r.enemies[j'] == es[j];
      } else {
        var k :| 0 <= k < |r.shot| && r.shot[k] == es[j];
        NotClear(r.shot, k, b, hits);
      }
    }
  }

  // ------------------------------------------------------ Group order

  /** Enemy `i` of `es` is shot: it overlaps a bullet of `bs` that no enemy
      ahead of it in group order overlaps, so the bullet is still alive when
      its turn comes. */
  ghost predicate Doomed<E, B>(es: seq<E>, i: nat, bs: seq<B>, hits: (E, B) -> bool)
    requires i < |es|
  {
    exists b :: b in bs && hits(es[i], b) && Clear(es[..i], b, hits)
  }

  /** The fate of every enemy of `es`, by position: true when it is shot. */
  ghost function Fates<E, B>(es: seq<E>, bs: seq<B>, hits: (E, B) -> bool): (r: seq<bool>)
    ensures |r| == |es|
    ensures forall i :: 0 <= i < |es| ==> r[i] == Doomed(es, i, bs, hits)
  {
    seq(|es|, i requires 0 <= i < |es| => Doomed(es, i, bs, hits))
  }

  /** The members of `s` whose flag is `want`, in order. */
  function Pick<T>(s: seq<T>, flags: seq<bool>, want: bool): (r: seq<T>)
    requires |flags| == |s|
    ensures |r| <= |s|
    decreases |s|
  {
    if |s| == 0 then []
    else (if flags[0] == want then [s[0]] else []) + Pick(s[1..], flags[1..], want)
  }

  /** The first enemy is shot exactly when it removes a bullet. */
  lemma DoomedHead<E, B>(es: seq<E>, bs: seq<B>, hits: (E, B) -> bool)
    requires |es| > 0
    ensures Doomed(es, 0, bs, hits) <==> |Filter(bs, Misses(hits, es[0]))| < |bs|
  {
    RestShorter(es[0], bs, hits);
    if exists i :: 0 <= i < |bs| && hits(es[0], bs[i]) {
      var i :| 0 <= i < |bs| && hits(es[0], bs[i]);
      assert Clear(es[..0], bs[i], hits);
    }
  }

  /** Past the first enemy, the fates are those of the rest of the group
      against the bullets the first one left alive. */
  lemma DoomedShift<E, B>(es: seq<E>, bs: seq<B>, hits: (E, B) -> bool, i: nat)
    requires i + 1 < |es|
    ensures Doomed(es, i + 1, bs, hits) <==> Doomed(es[1..], i, Filter(bs, Misses(hits, es[0])), hits)
  {
    var rest := Filter(bs, Misses(hits, es[0]));
    FilterMembers(bs, Misses(hits, es[0]));
    assert es[1..][i] == es[i + 1];
    assert es[..i + 1] == [es[0]] + es[1..][..i];
    forall b | b in rest
      ensures b in bs && !hits(es[0], b)
    {
      var j :| 0 <= j < |rest| && rest[j] == b;
      assert Misses(hits, es[0])(rest[j]);
    }
    forall b | b in bs && !hits(es[0], b)
      ensures b in rest
    {
      var j :| 0 <= j < |bs| && bs[j] == b;
      assert Misses(hits, es[0])(bs[j]);
    }
    forall b
      ensures Clear(es[..i + 1], b, hits) <==> !hits(es[0], b) && Clear(es[1..][..i], b, hits)
    {
      var front := es[..i + 1];
      if !hits(es[0], b) && Clear(es[1..][..i], b, hits) {
        forall k | 0 <= k < |front|
          ensures !hits(front[k], b)
        {
          if k > 0 {
            assert front[k] == es[1..][..i][k - 1];
          }
        }
      }
      if Clear(front, b, hits) {
        assert !hits(front[0], b);
        forall k | 0 <= k < i
          ensures !hits(es[1..][..i][k], b)
        {
          assert es[1..][..i][k] == front[k + 1];
        }
      }
    }
  }

  /** The group-order rule in closed form: the shot enemies are exactly the
      doomed ones and the survivors exactly the others, each in group order. */
  lemma {:induction false} SweepOrder<E, B>(es: seq<E>, bs: seq<B>, hits: (E, B) -> bool)
    ensures Sweep(es, bs, hits).shot == Pick(es, Fates(es, bs, hits), true)
    ensures Sweep(es, bs, hits).enemies == Pick(es, Fates(es, bs, hits), false)
    decreases |es|
  {
    if |es| > 0 {
      var rest := Filter(bs, Misses(hits, es[0]));
      var fates := Fates(es, bs, hits);
      SweepStep(es, bs, hits);
      SweepOrder(es[1..], rest, hits);
      DoomedHead(es, bs, hits);
      forall i | 0 <= i < |es| - 1
        ensures fates[1..][i] == Fates(es[1..], rest, hits)[i]
      {
        DoomedShift(es, bs, hits, i);
      }
      assert fates[1..] == Fates(es[1..], rest, hits);
    }
  }

  /** If some enemy of `es[..n]` overlaps `b`, a first one does. */
  lemma {:induction false} FirstHitter<E, B>(es: seq<E>, n: nat, b: B, hits: (E, B) -> bool)
    requires n <= |es| && !Clear(es[..n], b, hits)
    ensures exists k :: 0 <= k < n && hits(es[k], b) && Clear(es[..k], b, hits)
    decreases n
  {
    var i :| 0 <= i < n && hits(es[..n][i], b);
    if Clear(es[..n - 1], b, hits) {
      assert hits(es[n - 1], b);
    } else {
      FirstHitter(es, n - 1, b, hits);
    }
  }

  /** A survivor that overlaps a bullet lived because an enemy ahead of it in
      group order was shot by that same bullet. */
  lemma SweepSurvivorsEarlier<E, B>(es: seq<E>, bs: seq<B>, hits: (E, B) -> bool)
    ensures forall j, b :: 0 <= j < |es| && !Doomed(es, j, bs, hits) && b in bs && hits(es[j], b) ==>
      exists k :: 0 <= k < j && Doomed(es, k, bs, hits) && hits(es[k], b)
  {
    forall j, b | 0 <= j < |es| && !Doomed(es, j, bs, hits) && b in bs && hits(es[j], b)
      ensures exists k :: 0 <= k < j && Doomed(es, k, bs, hits) && hits(es[k], b)
    {
      assert !Clear(es[..j], b, hits);
      FirstHitter(es, j, b, hits);
      var k :| 0 <= k < j && hits(es[k], b) && Clear(es[..k], b, hits);
      assert Doomed(es, k, bs, hits);
    }
  }

  /** The bullets `e` overlaps. */
  function HitBy<E, B>(hits: (E, B) -> bool, e: E): B -> bool { b => hits(e, b) }

  /** `e` has something to collide with exactly when it would remove a bullet. */
  lemma HitIffShorter<E, B>(e: E, bs: seq<B>, hits: (E, B) -> bool)
    ensures |Filter(bs, HitBy(hits, e))| > 0 <==> |Filter(bs, Misses(hits, e))| < |bs|
  {
    RestShorter(e, bs, hits);
    FilterMembers(bs, HitBy(hits, e));
    var hit := Filter(bs, HitBy(hits, e));
    if |hit| > 0 {
      assert HitBy(hits, e)(hit[0]) && hit[0] in bs;
    }
  }

  /** `groupcollide` as the library's loop runs it: one enemy at a time,
      each removing the bullets it overlaps from the group. */
  method GroupCollide<E, B>(es: seq<E>, bs: seq<B>, hits: (E, B) -> bool)
    returns (alive: seq<E>, left: seq<B>, shot: seq<E>)
    ensures Clash(alive, left, shot) == Sweep(es, bs, hits)
  {
    alive, left, shot := [], bs, [];
    var i := 0;
    while i < |es|
      invariant 0 <= i <= |es|
      invariant var tail := Sweep(es[i..], left, hits);
        Clash(alive + tail.enemies, tail.bullets, shot + tail.shot) == Sweep(es, bs, hits)
    {
      var e := es[i];
      var hit := Filter(left, HitBy(hits, e));
      var rest := Filter(left, Misses(hits, e));
      HitIffShorter(e, left, hits);
      SweepStep(es[i..], left, hits);
      assert es[i..][0] == e && es[i..][1..] == es[i + 1..];
      if |hit| > 0 {
        shot := shot + [e];
      } else {
        alive := alive + [e];
      }
      left := rest;
      i := i + 1;
    }
    assert es[i..] == [];
  }

  // ------------------------------------------------------------ Enemy-player

  predicate Touches(p: Player, e: Enemy) { Overlaps(PlayerRect(p), EnemyRect(e)) }

  function Rams(p: Player): Enemy -> bool { e => Touches(p, e) }

  /** Outcome of the player pass: enemies left and the ones that rammed. */
  datatype Ram = Ram(enemies: seq<Enemy>, rammed: seq<Enemy>)

  /** `spritecollide(player, enemies, True, collide_rect)`: the enemies
      overlapping the player are removed and returned. */
  function EnemyPlayerPass(p: Player, es: seq<Enemy>): (r: Ram)
    ensures forall j :: 0 <= j < |r.enemies| ==> r.enemies[j] in es && !Touches(p, r.enemies[j])
    ensures forall j :: 0 <= j < |r.rammed| ==> r.rammed[j] in es && Touches(p, r.rammed[j])
    ensures |r.enemies| + |r.rammed| == |es|
    ensures |r.rammed| == 0 <==> r.enemies == es
    ensures r.enemies == Filter(es, Not(Rams(p))) && r.rammed == Filter(es, Rams(p))
  {
    var rammed := Filter(es, Rams(p));
    var left := Filter(es, Not(Rams(p)));
    FilterSplit(es, Rams(p));
    FilterMembers(es, Rams(p));
    FilterMembers(es, Not(Rams(p)));
    if |rammed| == 0 then
      FilterNoneLeavesAll(es, Rams(p));
      Ram(left, rammed)
    else
      Ram(left, rammed)
  }

  /** The player pass splits the enemies between survivors and rammers. */
  lemma PlayerPassPartition(p: Player, es: seq<Enemy>)
    ensures var r := EnemyPlayerPass(p, es);
      multiset(r.enemies) + multiset(r.rammed) == multiset(es)
  {
    FilterSplit(es, Rams(p));
  }

  /** The player pass goes enemy by enemy in group order: a group that is
      two groups joined leaves the two groups' survivors joined, and a
      single enemy stays exactly when it does not touch the player. */
  lemma PlayerPassOrder(p: Player, a: seq<Enemy>, b: seq<Enemy>)
    ensures EnemyPlayerPass(p, a + b).enemies == EnemyPlayerPass(p, a).enemies + EnemyPlayerPass(p, b).enemies
    ensures EnemyPlayerPass(p, a + b).rammed == EnemyPlayerPass(p, a).rammed + EnemyPlayerPass(p, b).rammed
    ensures forall e :: EnemyPlayerPass(p, [e]).enemies == if Touches(p, e) then [] else [e]
  {
    FilterConcat(a, b, Not(Rams(p)));
    FilterConcat(a, b, Rams(p));
    forall e
      ensures EnemyPlayerPass(p, [e]).enemies == if Touches(p, e) then [] else [e]
    {
      assert [e][1..] == [];
    }
  }
}

=== FILE: config.dfy ===
/** Tuning constants of the shooter, with the source's values. Screen
    coordinates have their origin top-left and y grows downward. */
module Config {

  const Width: real := 900.0
  const Height: real := 600.0

  const PlayerSpeed: real := 340.0
  const PlayerW: real := 48.0
  const PlayerH: real := 36.0
  const FireCooldown: real := 0.18

  const BulletSpeed: real := 700.0
  const BulletW: real := 6.0
  const BulletH: real := 14.0
  /** Horizontal distance of each bullet of a volley from the muzzle. */
  const MuzzleOffset: real := 10.0

  const EnemySpeedMin: real := 60.0
  const EnemySpeedMax: real := 140.0
  const BaseSpawnInterval: real := 1.0
  const EnemyW: real := 42.0
  const EnemyH: real := 30.0

  const ParticleCount: nat := 18
  const ParticleSpeed: real := 180.0
  const ParticleLifetime: real := 0.6
  /** Per-update velocity factor of a particle. */
  const Drag: real := 0.98

  const StartLives: int := 3
  const HitScore: int := 10
}

=== FILE: game.dfy ===
/** The session state and the frame loop of `main`: event handling, the
    pause toggle, and the unpaused tick (speed factor, spawning, player,
    shooting, sprite updates, stars, collisions and the soft reset). */
module Game {
  import opened Config
  import opened Util
  import opened Geometry
  import opened Sprites
  import opened Starfield
  import opened Manager
  import opened Collide

  /** Everything the frame loop keeps between frames. The source keeps
      `score` and `lives` on the player object; here they sit with the
      other session counters. */
  datatype Session = Session(
    player: Player,
    bullets: seq<Bullet>,
    enemies: seq<Enemy>,
    particles: seq<Particle>,
    stars: seq<Star>,
    score: int,
    lives: int,
    spawnTimer: real,
    paused: bool,
    speedFactor: real,
    running: bool)

  /** The random and floating-point values one tick takes from outside the
      model: the draws for an enemy spawned this tick, `math.sin`,
      `Vector2.normalize`, the draws for particle `i` of the `k`-th
      explosion of this tick, and the column a wrapping star `k` reappears
      at. */
  datatype Chance = Chance(
    seed: EnemySeed,
    sine: real -> real,
    normalize: Vec -> Vec,
    spark: (nat, nat) -> Spark,
    starX: nat -> real)

  /** Every value lies in the range its source draws from. */
  ghost predicate ChanceOk(c: Chance)
  {
    && SeedOk(c.seed)
    && (forall t :: -1.0 <= c.sine(t) <= 1.0)
    && (forall k, i :: SparkOk(c.spark(k, i)))
    && (forall k :: 0.0 <= c.starX(k) <= Width)
  }

  /** The state before the first frame, around a sown starfield. */
  function Start(stars: seq<Star>): Session
  {
    Session(
      Player(Vec(Width / 2.0, Height - 100.0), Vec(0.0, 0.0), 0.0),
      [], [], [], stars,
      0, StartLives, 0.0, false, 1.0, true)
  }

  // ---------------------------------------------------------------- Events

  datatype Key = Escape | PauseKey | OtherKey
  datatype Event = Quit | KeyDown(key: Key) | OtherEvent

  function HandleEvent(g: Session, ev: Event): Session
  {
    match ev
    case Quit => g.(running := false)
    case KeyDown(k) =>
      if k == Escape then g.(running := false)
      else if k == PauseKey then g.(paused := !g.paused)
      else g
    case OtherEvent => g
  }

  /** The event loop at the top of a frame, in arrival order. */
  function HandleEvents(g: Session, evs: seq<Event>): Session
    decreases |evs|
  {
    if |evs| == 0 then g else HandleEvents(HandleEvent(g, evs[0]), evs[1..])
  }

  /** How many pause presses arrived. */
  function PauseToggles(evs: seq<Event>): nat
    decreases |evs|
  {
    if |evs| == 0 then 0
    else (if evs[0] == KeyDown(PauseKey) then 1 else 0) + PauseToggles(evs[1..])
  }

  /** Some event asks the loop to stop. */
  predicate Stops(evs: seq<Event>)
  {
    exists i :: 0 <= i < |evs| && (evs[i] == Quit || evs[i] == KeyDown(Escape))
  }

  /** The event loop flips `paused` once per pause press, clears `running`
      if any quit or escape arrived, and touches nothing else. */
  lemma {:induction false} HandleEventsEffect(g: Session, evs: seq<Event>)
    ensures HandleEvents(g, evs) ==
      g.(paused := g.paused != (PauseToggles(evs) % 2 == 1),
         running := g.running && !Stops(evs))
    decreases |evs|
  {
    if |evs| > 0 {
      HandleEventsEffect(HandleEvent(g, evs[0]), evs[1..]);
      assert Stops(evs) <==> (evs[0] == Quit || evs[0] == KeyDown(Escape) || Stops(evs[1..])) by {
        if Stops(evs[1..]) {
          var i :| 0 <= i < |evs[1..]| && (evs[1..][i] == Quit || evs[1..][i] == KeyDown(Escape));
          assert evs[i + 1] == evs[1..][i];
        }
        if Stops(evs) {
          var i :| 0 <= i < |evs| && (evs[i] == Quit || evs[i] == KeyDown(Escape));
          if i > 0 {
            assert evs[1..][i - 1] == evs[i];
          }
        }
      }
    }
  }

  // ------------------------------------------------------------------ Tick

  /** The starfield speed factor: snapped while a horizontal key is held
      (left wins), otherwise eased back towards one. */
  function EaseSpeed(speedFactor: real, keys: Keys, dt: real): real
  {
    if keys.left then 0.75
    else if keys.right then 1.25
    else speedFactor + (1.0 - speedFactor) * Min(1.0, dt * 3.0)
  }

  /** Easing moves the factor towards one without overshooting: it stays
      on its side of one, never moves further away, and reaches one once a
      third of a second has passed. A factor in [0.75, 1.25] stays there. */
  lemma EaseSpeedBounded(speedFactor: real, keys: Keys, dt: real)
    requires dt >= 0.0
    ensures !keys.left && !keys.right ==>
      Abs(EaseSpeed(speedFactor, keys, dt) - 1.0) <= Abs(speedFactor - 1.0)
    ensures !keys.left && !keys.right && speedFactor <= 1.0 ==>
      speedFactor <= EaseSpeed(speedFactor, keys, dt) <= 1.0
    ensures !keys.left && !keys.right && speedFactor >= 1.0 ==>
      1.0 <= EaseSpeed(speedFactor, keys, dt) <= speedFactor
    ensures !keys.left && !keys.right && dt * 3.0 >= 1.0 ==> EaseSpeed(speedFactor, keys, dt) == 1.0
    ensures 0.75 <= speedFactor <= 1.25 ==> 0.75 <= EaseSpeed(speedFactor, keys, dt) <= 1.25
  {
    if !keys.left && !keys.right {
      var m := Min(1.0, dt * 3.0);
      var d := speedFactor - 1.0;
      assert EaseSpeed(speedFactor, keys, dt) - 1.0 == (1.0 - m) * d;
      Shrink(1.0 - m, d);
    }
  }

  /** Scaling by a factor in [0, 1] does not lengthen and keeps the sign. */
  lemma Shrink(s: real, d: real)
    requires 0.0 <= s <= 1.0
    ensures Abs(s * d) <= Abs(d)
    ensures d >= 0.0 ==> 0.0 <= s * d <= d
    ensures d <= 0.0 ==> d <= s * d <= 0.0
  {
    if d < 0.0 {
      assert s * d >= d;
      assert s * d <= 0.0;
    } else {
      assert s * d <= d;
      assert s * d >= 0.0;
    }
  }

  function Centers(es: seq<Enemy>): (r: seq<Vec>)
    ensures |r| == |es|
    ensures forall i :: 0 <= i < |es| ==> r[i] == es[i].pos
  {
    seq(|es|, i requires 0 <= i < |es| => EnemyRect(es[i]).Center())
  }

  /** The movement direction for the held keys: the raw vector, normalised
      unless it is zero. */
  function Direction(keys: Keys, c: Chance): Vec
  {
    var m := Move(keys);
    if m.LengthSquared() > 0.0 then c.normalize(m) else m
  }

  /** `normalize` does what `Vector2.normalize` does on a non-zero vector. */
  ghost predicate Normalizes(normalize: Vec -> Vec)
  {
    forall m: Vec :: m.LengthSquared() != 0.0 ==> IsUnitOf(m, normalize(m))
  }

  /** With a faithful `normalize`, the direction is the normalised movement
      vector, so the ship never outruns its speed. */
  lemma DirectionIsUnit(keys: Keys, c: Chance)
    requires Normalizes(c.normalize)
    ensures IsUnitOf(Move(keys), Direction(keys, c))
  {
  }

  /** The steps of an unpaused tick before the collisions: speed factor, spawn, player
      update, shooting, sprite updates and stars. */
  function Advance(g: Session, keys: Keys, dt: real, c: Chance): Session
  {
    var speedFactor := EaseSpeed(g.speedFactor, keys, dt);
    var spawned := Spawn(g.spawnTimer, g.score, g.enemies, dt, c.seed);
    var shot := Fire(UpdatePlayer(g.player, Direction(keys, c), dt), keys.fire);
    g.(player := shot.player,
       bullets := UpdateBullets(g.bullets + shot.bullets, dt),
       enemies := UpdateEnemies(spawned.enemies, dt, c.sine),
       particles := UpdateParticles(g.particles, dt),
       stars := UpdateStars(g.stars, dt, speedFactor, c.starX),
       spawnTimer := spawned.timer,
       speedFactor := speedFactor)
  }

  /** Whether the player pass finds a rammer and, if so, whether it costs
      the last life. */
  datatype Verdict = Unhurt | Hurt | Reset

  /** The collision step: the bullet pass, then the player pass. A hit on the player
      costs one life however many enemies overlap it; losing the last life
      resets score and lives and clears enemies and bullets, with an
      explosion for every enemy left. Particles are only ever appended. */
  function Resolve(g: Session, spark: (nat, nat) -> Spark): Session
  {
    var clash := BulletEnemyPass(g.enemies, g.bullets);
    var score := g.score + HitScore * |clash.shot|;
    var ram := EnemyPlayerPass(g.player, clash.enemies);
    var particles := g.particles + Explosions(Blasts(g), spark);
    match Judge(g, clash.enemies)
    case Unhurt =>
      g.(enemies := clash.enemies, bullets := clash.bullets, score := score, particles := particles)
    case Hurt =>
      g.(enemies := ram.enemies, bullets := clash.bullets, score := score, lives := g.lives - 1,
         particles := particles)
    case Reset =>
      g.(enemies := [], bullets := [], score := 0, lives := StartLives, particles := particles)
  }

  /** The points that explode in the collision step, in order. */
  function Blasts(g: Session): seq<Vec>
  {
    var clash := BulletEnemyPass(g.enemies, g.bullets);
    var ram := EnemyPlayerPass(g.player, clash.enemies);
    var here := PlayerRect(g.player).Center();
    var booms := Centers(clash.shot);
    match Judge(g, clash.enemies)
    case Unhurt => booms
    case Hurt => booms + [here]
    case Reset => booms + [here, here] + Centers(ram.enemies)
  }

  /** The outcome of the player pass against the enemies left by the bullets. */
  function Judge(g: Session, es: seq<Enemy>): Verdict
  {
    if |EnemyPlayerPass(g.player, es).rammed| == 0 then Unhurt
    else if g.lives - 1 <= 0 then Reset
    else Hurt
  }

  /** The player is unhurt exactly when no enemy overlaps it; otherwise it
      is the last life that decides between a hit and a restart. */
  lemma JudgeIff(g: Session, es: seq<Enemy>)
    ensures Judge(g, es) == Unhurt <==> forall e :: e in es ==> !Touches(g.player, e)
    ensures Judge(g, es) == Reset <==> (exists e :: e in es && Touches(g.player, e)) && g.lives <= 1
  {
    var ram := EnemyPlayerPass(g.player, es);
    if |ram.rammed| > 0 {
      assert ram.rammed[0] in es && Touches(g.player, ram.rammed[0]);
    }
  }

  /** One unpaused tick. */
  function Tick(g: Session, keys: Keys, dt: real, c: Chance): Session
  {
    Resolve(Advance(g, keys, dt, c), c.spark)
  }

  /** One pass of the main loop: events, then a tick unless paused. The
      tick of the frame in which quit arrives still runs. */
  function Frame(g: Session, evs: seq<Event>, keys: Keys, dt: real, c: Chance): Session
  {
    var h := HandleEvents(g, evs);
    if h.paused then h else Tick(h, keys, dt, c)
  }
}

=== FILE: geometry.dfy ===
/** Two-dimensional vectors and axis-aligned rectangles, as the game uses
    pygame's `Vector2` and `Rect`. */
module Geometry {
  import opened Util

  datatype Vec = Vec(x: real, y: real) {
    function Plus(o: Vec): Vec { Vec(x + o.x, y + o.y) }
    function Minus(o: Vec): Vec { Vec(x - o.x, y - o.y) }
    function Scale(k: real): Vec { Vec(k * x, k * y) }
    function LengthSquared(): real { x * x + y * y }
  }

  /** A rectangle by its top-left corner and its size. */
  datatype Rect = Rect(left: real, top: real, width: real, height: real) {
    function Right(): real { left + width }
    function Bottom(): real { top + height }
    function Center(): Vec { Vec(left + width / 2.0, top + height / 2.0) }
    function MidTop(): Vec { Vec(left + width / 2.0, top) }
  }

  /** The rectangle of size `w` by `h` after `rect.center = c`. */
  function Centered(c: Vec, w: real, h: real): (r: Rect)
    ensures r.Center() == c && r.width == w && r.height == h
  {
    Rect(c.x - w / 2.0, c.y - h / 2.0, w, h)
  }

  /** `Rect.colliderect`: the interiors intersect (touching edges do not count). */
  predicate Overlaps(a: Rect, b: Rect)
  {
    a.left < b.Right() && b.left < a.Right() && a.top < b.Bottom() && b.top < a.Bottom()
  }

  /** Two centred rectangles overlap exactly when their centres are closer
      than half the sum of their sizes on both axes. */
  lemma OverlapsCentered(c: Vec, w: real, h: real, d: Vec, v: real, k: real)
    ensures Overlaps(Centered(c, w, h), Centered(d, v, k))
        <==> Abs(c.x - d.x) < (w + v) / 2.0 && Abs(c.y - d.y) < (h + k) / 2.0
  {
  }
}

=== FILE: groups.dfy ===
/** Sprite groups as sequences in insertion order. `Filter` is a group
    after `kill()` has been called on some members; `UpdateGroup` is
    `Group.update(dt)` for sprites whose update may kill themselves. */
module Groups {

  /** The negation and the conjunction of element tests. */
  function Not<T>(p: T -> bool): T -> bool { x => !p(x) }

  function Both<T>(p: T -> bool, q: T -> bool): T -> bool { x => p(x) && q(x) }

  /** The members that pass `keep`, in order. */
  function Filter<T>(s: seq<T>, keep: T -> bool): (r: seq<T>)
    ensures |r| <= |s|
    ensures forall i :: 0 <= i < |r| ==> keep(r[i])
    decreases |s|
  {
    if |s| == 0 then []
    else if keep(s[0]) then [s[0]] + Filter(s[1..], keep)
    else Filter(s[1..], keep)
  }

  /** Nothing is kept more often than it occurs. */
  lemma {:induction false} FilterMultiset<T>(s: seq<T>, keep: T -> bool)
    ensures multiset(Filter(s, keep)) <= multiset(s)
    decreases |s|
  {
    if |s| > 0 {
      FilterMultiset(s[1..], keep);
      assert s == [s[0]] + s[1..];
    }
  }

  /** Exactly the members that pass the test are kept. */
  lemma {:induction false} FilterMembers<T>(s: seq<T>, keep: T -> bool)
    ensures forall i :: 0 <= i < |Filter(s, keep)| ==> Filter(s, keep)[i] in s
    ensures forall i :: 0 <= i < |s| && keep(s[i]) ==> s[i] in Filter(s, keep)
    decreases |s|
  {
    var r := Filter(s, keep);
    FilterMultiset(s, keep);
    forall i | 0 <= i < |r|
      ensures r[i] in s
    {
      assert r[i] in multiset(r);
    }
    if |s| > 0 {
      FilterMembers(s[1..], keep);
      forall i | 0 <= i < |s| && keep(s[i])
        ensures s[i] in r
      {
        if i > 0 {
          assert s[i] == s[1..][i - 1];
        }
      }
    }
  }

  lemma {:induction false} FilterAll<T>(s: seq<T>, keep: T -> bool)
    requires forall i :: 0 <= i < |s| ==> keep(s[i])
    ensures Filter(s, keep) == s
    decreases |s|
  {
    if |s| > 0 {
      FilterAll(s[1..], keep);
      assert [s[0]] + s[1..] == s;
    }
  }

  lemma {:induction false} FilterNone<T>(s: seq<T>, keep: T -> bool)
    requires forall i :: 0 <= i < |s| ==> !keep(s[i])
    ensures Filter(s, keep) == []
    decreases |s|
  {
    if |s| > 0 {
      FilterNone(s[1..], keep);
    }
  }

  /** Two tests that agree on the elements select the same subsequence. */
  lemma {:induction false} FilterExt<T>(s: seq<T>, p: T -> bool, q: T -> bool)
    requires forall i :: 0 <= i < |s| ==> p(s[i]) == q(s[i])
    ensures Filter(s, p) == Filter(s, q)
    decreases |s|
  {
    if |s| > 0 {
      FilterExt(s[1..], p, q);
    }
  }

  /** Selecting twice is selecting by the conjunction. */
  lemma {:induction false} FilterFilter<T>(s: seq<T>, p: T -> bool, q: T -> bool)
    ensures Filter(Filter(s, p), q) == Filter(s, Both(p, q))
    decreases |s|
  {
    if |s| > 0 {
      FilterFilter(s[1..], p, q);
      if p(s[0]) {
        assert Filter(s, p) == [s[0]] + Filter(s[1..], p);
        assert Filter(s, p)[1..] == Filter(s[1..], p);
      }
    }
  }

  /** Selecting by a test and by its negation splits the sequence. */
  lemma {:induction false} FilterSplit<T>(s: seq<T>, p: T -> bool)
    ensures multiset(Filter(s, p)) + multiset(Filter(s, Not(p))) == multiset(s)
    ensures |Filter(s, p)| + |Filter(s, Not(p))| == |s|
    decreases |s|
  {
    if |s| > 0 {
      FilterSplit(s[1..], p);
      assert [s[0]] + s[1..] == s;
    }
  }

  /** Every member after one step, in order. */
  function Moved<T>(s: seq<T>, step: T -> T): (r: seq<T>)
    ensures |r| == |s|
    ensures forall i :: 0 <= i < |s| ==> r[i] == step(s[i])
  {
    seq(|s|, i requires 0 <= i < |s| => step(s[i]))
  }

  /** Selecting from a concatenation selects from each part in turn. */
  lemma {:induction false} FilterConcat<T>(a: seq<T>, b: seq<T>, keep: T -> bool)
    ensures Filter(a + b, keep) == Filter(a, keep) + Filter(b, keep)
    decreases |a|
  {
    if |a| > 0 {
      assert (a + b)[1..] == a[1..] + b;
      FilterConcat(a[1..], b, keep);
    } else {
      assert a + b == b;
    }
  }

  /** Every member takes one step; those the step leaves expired are killed.
      The survivors keep their group order and each appears once. */
  function UpdateGroup<T>(s: seq<T>, step: T -> T, gone: T -> bool): (r: seq<T>)
    ensures |r| <= |s|
    ensures forall j :: 0 <= j < |r| ==>
      !gone(r[j]) && exists i :: 0 <= i < |s| && r[j] == step(s[i])
    ensures forall i :: 0 <= i < |s| && !gone(step(s[i])) ==> step(s[i]) in r
    ensures r == Filter(Moved(s, step), Not(gone))
  {
    var moved := Moved(s, step);
    var r := Filter(moved, Not(gone));
    FilterMembers(moved, Not(gone));
    assert forall j :: 0 <= j < |r| ==> exists i :: 0 <= i < |moved| && r[j] == moved[i];
    r
  }

  /** The update works member by member in group order: a group that is two
      groups joined updates to the two updated groups joined, and a single
      member survives, moved, exactly when its step does not expire it. */
  lemma UpdateGroupOrder<T>(a: seq<T>, b: seq<T>, step: T -> T, gone: T -> bool)
    ensures UpdateGroup(a + b, step, gone) == UpdateGroup(a, step, gone) + UpdateGroup(b, step, gone)
    ensures forall x :: UpdateGroup([x], step, gone) == if gone(step(x)) then [] else [step(x)]
    ensures multiset(UpdateGroup(a, step, gone)) <= multiset(Moved(a, step))
  {
    assert Moved(a + b, step) == Moved(a, step) + Moved(b, step);
    FilterConcat(Moved(a, step), Moved(b, step), Not(gone));
    FilterMultiset(Moved(a, step), Not(gone));
    forall x
      ensures UpdateGroup([x], step, gone) == if gone(step(x)) then [] else [step(x)]
    {
      assert Moved([x], step) == [step(x)];
      assert Moved([x], step)[1..] == [];
    }
  }

  /** When nothing passes a test, everything passes its negation. */
  lemma FilterNoneLeavesAll<T>(s: seq<T>, p: T -> bool)
    requires |Filter(s, p)| == 0
    ensures Filter(s, Not(p)) == s
  {
    FilterAll(s, Not(p));
  }
}

=== FILE: invariants.dfy ===
/** What every frame of a session keeps true, from the first frame on. */
module Invariants {
  import opened Config
  import opened Geometry
  import opened Groups
  import opened Sprites
  import opened Starfield
  import opened Manager
  import opened Collide
  import opened Game

  /** A bullet in flight: it climbs at the bullet speed and has not yet
      passed the kill line above the screen. */
  predicate BulletOk(b: Bullet)
  {
    b.vel == Vec(0.0, -BulletSpeed) && !BulletGone(b)
  }

  predicate PlayerOk(p: Player)
  {
    OnScreen(p.pos) && 0.0 <= p.fireTimer <= FireCooldown
  }

  /** The session invariant. */
  predicate Inv(g: Session)
  {
    && PlayerOk(g.player)
    && 1 <= g.lives <= StartLives
    && g.score >= 0 && g.score % HitScore == 0
    && g.spawnTimer >= 0.0
    && 0.75 <= g.speedFactor <= 1.25
    && (forall b :: b in g.bullets ==> BulletOk(b))
    && (forall e :: e in g.enemies ==> EnemyOk(e))
    && (forall p :: p in g.particles ==> ParticleOk(p))
    && (forall s :: s in g.stars ==> StarOk(s))
  }

  /** A new session around a sown starfield satisfies the invariant. */
  lemma StartOk(stars: seq<Star>)
    requires forall s :: s in stars ==> Sown(s)
    ensures Inv(Start(stars))
  {
    forall s | s in stars
      ensures StarOk(s)
    {
      SownIsOk(s);
    }
  }

  // ----------------------------------------------------------- Advance

  /** Cooldown bookkeeping keeps the timer in [0, FireCooldown] and the
      ship on screen. */
  lemma PlayerStaysOk(p: Player, u: Vec, dt: real, trigger: bool)
    requires PlayerOk(p) && dt >= 0.0
    ensures PlayerOk(Fire(UpdatePlayer(p, u, dt), trigger).player)
  {
  }

  lemma BulletsStayOk(bs: seq<Bullet>, volley: seq<Bullet>, dt: real)
    requires forall b :: b in bs ==> BulletOk(b)
    requires forall b :: b in volley ==> b.vel == Vec(0.0, -BulletSpeed)
    ensures forall b :: b in UpdateBullets(bs + volley, dt) ==> BulletOk(b)
  {
    var all := bs + volley;
    var r := UpdateBullets(all, dt);
    forall j | 0 <= j < |r|
      ensures BulletOk(r[j])
    {
      var i :| 0 <= i < |all| && r[j] == MoveBullet(all[i], dt);
      assert all[i] in bs || all[i] in volley;
    }
  }

  lemma EnemiesStayOk(es: seq<Enemy>, dt: real, sine: real -> real)
    requires forall e :: e in es ==> EnemyOk(e)
    ensures forall e :: e in UpdateEnemies(es, dt, sine) ==> EnemyOk(e)
  {
    var r := UpdateEnemies(es, dt, sine);
    forall j | 0 <= j < |r|
      ensures EnemyOk(r[j])
    {
      var i :| 0 <= i < |es| && r[j] == MoveEnemy(es[i], dt, sine);
      assert EnemyOk(es[i]);
    }
  }

  lemma ParticlesStayOk(ps: seq<Particle>, dt: real)
    requires forall p :: p in ps ==> ParticleOk(p)
    requires dt >= 0.0
    ensures forall p :: p in UpdateParticles(ps, dt) ==> ParticleOk(p)
  {
    var r := UpdateParticles(ps, dt);
    forall j | 0 <= j < |r|
      ensures ParticleOk(r[j])
    {
      var i :| 0 <= i < |ps| && r[j] == StepParticle(ps[i], dt);
      assert ParticleOk(ps[i]);
    }
  }

  lemma StarsStayOk(stars: seq<Star>, dt: real, speedFactor: real, freshX: nat -> real)
    requires forall s :: s in stars ==> StarOk(s)
    requires dt >= 0.0 && speedFactor >= 0.0
    requires forall k :: 0.0 <= freshX(k) <= Width
    ensures forall s :: s in UpdateStars(stars, dt, speedFactor, freshX) ==> StarOk(s)
  {
    var r := UpdateStars(stars, dt, speedFactor, freshX);
    forall j | 0 <= j < |r|
      ensures StarOk(r[j])
    {
      UpdateStarOk(stars[j], dt, speedFactor, freshX(j));
    }
  }

  lemma SpawnStaysOk(g: Session, dt: real, seed: EnemySeed)
    requires Inv(g) && dt >= 0.0 && SeedOk(seed)
    ensures var s := Spawn(g.spawnTimer, g.score, g.enemies, dt, seed);
      s.timer >= 0.0 && forall e :: e in s.enemies ==> EnemyOk(e)
  {
    SpawnAtMostOne(g.spawnTimer, g.score, g.enemies, dt, seed);
    SpawnEnemyOk(seed);
  }

  /** The steps of a tick before the collisions keep the invariant. */
  lemma AdvanceOk(g: Session, keys: Keys, dt: real, c: Chance)
    requires Inv(g) && dt >= 0.0 && ChanceOk(c)
    ensures Inv(Advance(g, keys, dt, c))
  {
    var sf := EaseSpeed(g.speedFactor, keys, dt);
    EaseSpeedBounded(g.speedFactor, keys, dt);
    var spawned := Spawn(g.spawnTimer, g.score, g.enemies, dt, c.seed);
    SpawnStaysOk(g, dt, c.seed);
    var u := Direction(keys, c);
    var shot := Fire(UpdatePlayer(g.player, u, dt), keys.fire);
    PlayerStaysOk(g.player, u, dt, keys.fire);
    BulletsStayOk(g.bullets, shot.bullets, dt);
    EnemiesStayOk(spawned.enemies, dt, c.sine);
    ParticlesStayOk(g.particles, dt);
    StarsStayOk(g.stars, dt, sf, c.starX);
  }

  // ----------------------------------------------------------- Resolve

  /** The bullet pass only removes enemies and bullets. */
  lemma BulletPassShrinks(es: seq<Enemy>, bs: seq<Bullet>)
    ensures var clash := BulletEnemyPass(es, bs);
      && (forall e :: e in clash.enemies ==> e in es)
      && (forall b :: b in clash.bullets ==> b in bs)
  {
    var clash := Sweep(es, bs, Hits);
    assert clash == BulletEnemyPass(es, bs);
    SweepPartition(es, bs, Hits);
    SweepBullets(es, bs, Hits);
    FilterMembers(bs, ClearOf(es, Hits));
    assert multiset(clash.enemies) <= multiset(es);
    forall e | e in clash.enemies
      ensures e in es
    {
      assert e in multiset(clash.enemies);
      assert e in multiset(es);
    }
  }

  /** The blast points follow the rules of the collision step: first every
      shot enemy's centre in group order; then, if an enemy rammed the ship,
      the ship's centre; and if that cost the last life, the ship's centre
      once more and the centre of every enemy still on screen. */
  lemma BlastPoints(g: Session)
    ensures var clash := BulletEnemyPass(g.enemies, g.bullets);
      var left := EnemyPlayerPass(g.player, clash.enemies).enemies;
      var n := |clash.shot|;
      var v := Judge(g, clash.enemies);
      var at := Blasts(g);
      && |at| == n + (match v case Unhurt => 0 case Hurt => 1 case Reset => 2 + |left|)
      && (forall i :: 0 <= i < n ==> at[i] == clash.shot[i].pos)
      && (v != Unhurt ==> at[n] == g.player.pos)
      && (v == Reset ==> at[n + 1] == g.player.pos)
      && (v == Reset ==> forall i :: 0 <= i < |left| ==> at[n + 2 + i] == left[i].pos)
  {
  }

  /** The collision step only appends particles: one burst per blast point. */
  lemma ResolveParticles(g: Session, spark: (nat, nat) -> Spark)
    ensures Resolve(g, spark).particles == g.particles + Explosions(Blasts(g), spark)
  {
  }

  lemma ParticlesAppendedOk(ps: seq<Particle>, at: seq<Vec>, spark: (nat, nat) -> Spark)
    requires forall p :: p in ps ==> ParticleOk(p)
    requires forall k, i :: SparkOk(spark(k, i))
    ensures forall p :: p in ps + Explosions(at, spark) ==> ParticleOk(p)
  {
    ExplosionsOk(at, spark);
    var xs := Explosions(at, spark);
    forall p | p in ps + xs
      ensures ParticleOk(p)
    {
      if p !in ps {
        var j :| 0 <= j < |xs| && xs[j] == p;
      }
    }
  }

  /** The enemies and bullets left by the collision step are among those
      that went in. */
  lemma ResolveShrinks(g: Session, spark: (nat, nat) -> Spark)
    ensures var r := Resolve(g, spark);
      && (forall e :: e in r.enemies ==> e in g.enemies)
      && (forall b :: b in r.bullets ==> b in g.bullets)
  {
    var clash := BulletEnemyPass(g.enemies, g.bullets);
    BulletPassShrinks(g.enemies, g.bullets);
    var ram := EnemyPlayerPass(g.player, clash.enemies);
    forall e | e in ram.enemies
      ensures e in clash.enemies
    {
      var j :| 0 <= j < |ram.enemies| && ram.enemies[j] == e;
    }
  }

  /** The collision step leaves the player, timers and stars alone and
      keeps lives in range and the score a non-negative multiple of the
      hit score. */
  lemma ResolveCounters(g: Session, spark: (nat, nat) -> Spark)
    requires 1 <= g.lives <= StartLives && g.score >= 0 && g.score % HitScore == 0
    ensures var r := Resolve(g, spark);
      && r.player == g.player && r.stars == g.stars
      && r.spawnTimer == g.spawnTimer && r.speedFactor == g.speedFactor
      && 1 <= r.lives <= StartLives && r.score >= 0 && r.score % HitScore == 0
  {
    var clash := BulletEnemyPass(g.enemies, g.bullets);
    var r := Resolve(g, spark);
    ResolveVerdict(g, spark);
    if Judge(g, clash.enemies) == Reset {
      assert r.score == 0 && r.lives == StartLives;
    } else {
      ScoreStep(g.score, |clash.shot|);
      assert r.score == g.score + HitScore * |clash.shot|;
    }
  }

  /** How the collision step sets lives and score under each verdict. */
  lemma ResolveVerdict(g: Session, spark: (nat, nat) -> Spark)
    ensures var r := Resolve(g, spark);
      var clash := BulletEnemyPass(g.enemies, g.bullets);
      var score := g.score + HitScore * |clash.shot|;
      && r.player == g.player && r.stars == g.stars
      && r.spawnTimer == g.spawnTimer && r.speedFactor == g.speedFactor
      && match Judge(g, clash.enemies)
         case Unhurt => r.score == score && r.lives == g.lives
         case Hurt => r.score == score && r.lives == g.lives - 1
         case Reset => r.score == 0 && r.lives == StartLives
  {
  }

  /** Adding whole hits keeps the score a non-negative multiple of the hit score. */
  lemma ScoreStep(score: int, n: nat)
    requires score >= 0 && score % HitScore == 0
    ensures score + HitScore * n >= 0 && (score + HitScore * n) % HitScore == 0
  {
  }

  /** The collision step keeps the invariant. */
  lemma ResolveOk(g: Session, spark: (nat, nat) -> Spark)
    requires Inv(g)
    requires forall k, i :: SparkOk(spark(k, i))
    ensures Inv(Resolve(g, spark))
  {
    var r := Resolve(g, spark);
    ResolveParticles(g, spark);
    ParticlesAppendedOk(g.particles, Blasts(g), spark);
    ResolveShrinks(g, spark);
    ResolveCounters(g, spark);
    assert forall p :: p in r.particles ==> ParticleOk(p);
    assert forall e :: e in r.enemies ==> EnemyOk(e);
    assert forall b :: b in r.bullets ==> BulletOk(b);
  }

  /** A whole tick keeps the invariant. */
  lemma TickOk(g: Session, keys: Keys, dt: real, c: Chance)
    requires Inv(g) && dt >= 0.0 && ChanceOk(c)
    ensures Inv(Tick(g, keys, dt, c))
  {
    AdvanceOk(g, keys, dt, c);
    ResolveOk(Advance(g, keys, dt, c), c.spark);
  }

  /** A whole frame keeps the invariant, paused or not. */
  lemma FrameOk(g: Session, evs: seq<Event>, keys: Keys, dt: real, c: Chance)
    requires Inv(g) && dt >= 0.0 && ChanceOk(c)
    ensures Inv(Frame(g, evs, keys, dt, c))
  {
    HandleEventsEffect(g, evs);
    var h := HandleEvents(g, evs);
    if !h.paused {
      TickOk(h, keys, dt, c);
    }
  }
}

=== FILE: manager.dfy ===
/** Spawning: the score-driven enemy spawn interval, enemy creation and
    explosion bursts. The random draws of the source come in as seeds. */
module Manager {
  import opened Config
  import opened Util
  import opened Geometry
  import opened Sprites

  /** Seconds between spawns: the base interval less a fiftieth of a second
      per point, the reduction capped at 0.7 and the result floored at 0.35. */
  function SpawnInterval(score: int): (r: real)
    ensures r >= 0.35
    ensures score >= 0 ==> r <= BaseSpawnInterval
    ensures score == 0 ==> r == BaseSpawnInterval
    ensures score >= 35 ==> r == 0.35
  {
    Max(0.35, BaseSpawnInterval - Min(score as real / 50.0, 0.7))
  }

  /** A higher score never makes enemies arrive more slowly. */
  lemma SpawnIntervalMonotone(lo: int, hi: int)
    requires lo <= hi
    ensures SpawnInterval(hi) <= SpawnInterval(lo)
  {
    assert lo as real / 50.0 <= hi as real / 50.0;
  }

  /** Bounds of the wobble amplitude draw `random.uniform(8, 26)`. */
  const WobbleMin: real := 8.0
  const WobbleMax: real := 26.0
  /** An upper bound of the phase draw `random.random() * 2 * pi`. */
  const PhaseBound: real := 6.2832

  /** The five random draws behind one new enemy. */
  datatype EnemySeed = EnemySeed(x: real, y: real, speed: real, phase: real, amp: real)

  /** The ranges `spawn_enemy` and `Enemy.__init__` draw from. */
  predicate SeedOk(s: EnemySeed)
  {
    && 40.0 <= s.x <= Width - 40.0
    && -110.0 <= s.y <= -30.0
    && EnemySpeedMin <= s.speed <= EnemySpeedMax
    && 0.0 <= s.phase < PhaseBound
    && WobbleMin <= s.amp <= WobbleMax
  }

  function SpawnEnemy(s: EnemySeed): Enemy
  {
    Enemy(Vec(s.x, s.y), s.speed, s.phase, s.amp)
  }

  /** What stays true of an enemy while it lives: the speed and amplitude
      it was drawn with, and a top edge not yet below the kill line. */
  predicate EnemyOk(e: Enemy)
  {
    && EnemySpeedMin <= e.speed <= EnemySpeedMax
    && WobbleMin <= e.amp <= WobbleMax
    && !EnemyGone(e)
  }

  /** A freshly spawned enemy starts above the screen, inside the columns
      the spawner uses, with a speed and amplitude in range. */
  lemma SpawnEnemyOk(s: EnemySeed)
    requires SeedOk(s)
    ensures EnemyOk(SpawnEnemy(s))
    ensures EnemyRect(SpawnEnemy(s)).Bottom() < 0.0
  {
  }

  /** Timer and enemies after the spawn step of a frame. */
  datatype Spawned = Spawned(timer: real, enemies: seq<Enemy>)

  /** The spawn step: the timer runs on by `dt`; once it reaches the
      interval for the current score, one enemy is added and the timer
      restarts from zero. */
  function Spawn(timer: real, score: int, enemies: seq<Enemy>, dt: real, seed: EnemySeed): (r: Spawned)
    ensures r.timer < SpawnInterval(score)
    ensures |enemies| <= |r.enemies| && r.enemies[..|enemies|] == enemies
    ensures timer + dt >= SpawnInterval(score) ==>
      r.timer == 0.0 && r.enemies == enemies + [SpawnEnemy(seed)]
    ensures timer + dt < SpawnInterval(score) ==>
      r.timer == timer + dt && r.enemies == enemies
  {
    var t := timer + dt;
    if t >= SpawnInterval(score) then Spawned(0.0, enemies + [SpawnEnemy(seed)])
    else Spawned(t, enemies)
  }

  /** The spawn step adds at most one enemy, and the timer stays non-negative. */
  lemma SpawnAtMostOne(timer: real, score: int, enemies: seq<Enemy>, dt: real, seed: EnemySeed)
    requires timer >= 0.0 && dt >= 0.0
    ensures var r := Spawn(timer, score, enemies, dt, seed);
      && |enemies| <= |r.enemies| <= |enemies| + 1
      && r.timer >= 0.0
      && (|r.enemies| == |enemies| + 1 <==> timer + dt >= SpawnInterval(score))
  {
  }

  // ------------------------------------------------------------- Explosions

  /** The random draws behind one particle: its velocity (a random
      direction times a random speed) and its lifetime. */
  datatype Spark = Spark(vel: Vec, lifetime: PosReal)

  /** The ranges `Particle.__init__` draws from. */
  predicate SparkOk(s: Spark)
  {
    && s.vel.LengthSquared() <= ParticleSpeed * ParticleSpeed
    && ParticleLifetime * 0.6 <= s.lifetime <= ParticleLifetime
  }

  /** A new particle: at rest in age, fully opaque. */
  function NewParticle(at: Vec, s: Spark): Particle
  {
    Particle(at, s.vel, 0.0, s.lifetime, 255)
  }

  /** What stays true of a particle while it lives. */
  predicate ParticleOk(p: Particle)
  {
    && 0.0 <= p.age < p.lifetime
    && ParticleLifetime * 0.6 <= p.lifetime <= ParticleLifetime
    && 0 <= p.alpha <= 255
  }

  /** `spawn_explosion(at)`: `ParticleCount` particles at one point, the
      `i`-th drawn from `spark(i)`. */
  function Explosion(at: Vec, spark: nat -> Spark): (r: seq<Particle>)
    ensures |r| == ParticleCount
    ensures forall i :: 0 <= i < |r| ==> r[i] == NewParticle(at, spark(i))
  {
    seq(ParticleCount, i requires 0 <= i < ParticleCount => NewParticle(at, spark(i)))
  }

  /** One explosion per point, in order; explosion `k` draws its particles
      from `spark(k, _)`. */
  function Explosions(at: seq<Vec>, spark: (nat, nat) -> Spark): (r: seq<Particle>)
    ensures |r| == ParticleCount * |at|
    ensures forall j :: 0 <= j < |r| ==> r[j].age == 0.0 && r[j].alpha == 255 && r[j].pos in at
    decreases |at|
  {
    if |at| == 0 then []
    else
      var k := |at| - 1;
      var front := Explosions(at[..k], spark);
      var last := Explosion(at[k], (i: nat) => spark(k, i));
      assert forall j :: 0 <= j < |front| ==> front[j].pos in at by {
        assert forall v :: v in at[..k] ==> v in at;
      }
      front + last
  }

  /** Every particle of a burst drawn from in-range sparks is live and valid. */
  lemma {:induction false} ExplosionsOk(at: seq<Vec>, spark: (nat, nat) -> Spark)
    requires forall k, i :: SparkOk(spark(k, i))
    ensures forall j :: 0 <= j < |Explosions(at, spark)| ==> ParticleOk(Explosions(at, spark)[j])
    decreases |at|
  {
    if |at| > 0 {
      var k := |at| - 1;
      ExplosionsOk(at[..k], spark);
      var last := Explosion(at[k], (i: nat) => spark(k, i));
      assert forall i :: 0 <= i < |last| ==> ParticleOk(last[i]) by {
        forall i | 0 <= i < |last|
          ensures ParticleOk(last[i])
        {
          assert SparkOk(spark(k, i));
        }
      }
    }
  }

  /** Explosion `k` occupies the `k`-th block of `ParticleCount` particles,
      and its `i`-th particle starts at `at[k]` with the spark `spark(k, i)`. */
  lemma {:induction false} ExplosionsLayout(at: seq<Vec>, spark: (nat, nat) -> Spark)
    ensures forall k, i :: 0 <= k < |at| && 0 <= i < ParticleCount ==>
      Explosions(at, spark)[ParticleCount * k + i] == NewParticle(at[k], spark(k, i))
    decreases |at|
  {
    if |at| > 0 {
      var n := |at| - 1;
      var front := Explosions(at[..n], spark);
      var last := Explosion(at[n], (i: nat) => spark(n, i));
      assert Explosions(at, spark) == front + last;
      ExplosionsLayout(at[..n], spark);
      forall k, i | 0 <= k < |at| && 0 <= i < ParticleCount
        ensures Explosions(at, spark)[ParticleCount * k + i] == NewParticle(at[k], spark(k, i))
      {
        if k < n {
          assert ParticleCount * k + i < ParticleCount * n;
          assert at[..n][k] == at[k];
        } else {
          assert ParticleCount * k + i - |front| == i;
        }
      }
    }
  }
}

=== FILE: outcomes.dfy ===
/** What one tick does to the counters and groups of a session, stated
    against the collision rules rather than the order of the steps. */
module Outcomes {
  import opened Config
  import opened Util
  import opened Sprites
  import opened Manager
  import opened Collide
  import opened Game
  import opened Invariants

  /** Some enemy overlaps the player. */
  predicate Rammed(p: Player, es: seq<Enemy>)
  {
    exists e :: e in es && Touches(p, e)
  }

  /** The enemies the player pass keeps are exactly the ones not touching
      the player. */
  lemma PlayerPassKeeps(p: Player, es: seq<Enemy>)
    ensures forall e :: e in EnemyPlayerPass(p, es).enemies <==> e in es && !Touches(p, e)
  {
    var ram := EnemyPlayerPass(p, es);
    PlayerPassPartition(p, es);
    forall e | e in ram.enemies
      ensures e in es && !Touches(p, e)
    {
      var j :| 0 <= j < |ram.enemies| && ram.enemies[j] == e;
    }
    forall e | e in es && !Touches(p, e)
      ensures e in ram.enemies
    {
      assert e in multiset(es);
      assert e !in ram.rammed;
      assert e !in multiset(ram.rammed);
    }
  }

  /** The collision step. With no enemy on the player, lives stay and
      every shot enemy scores. With one or more, one life is lost and all
      of them go; if that was the last life, the session restarts with full
      lives, no score and empty enemy and bullet groups. */
  lemma ResolveOutcome(g: Session, spark: (nat, nat) -> Spark)
    ensures var clash := BulletEnemyPass(g.enemies, g.bullets);
      var r := Resolve(g, spark);
      && (!Rammed(g.player, clash.enemies) ==>
            && r.lives == g.lives
            && r.score == g.score + HitScore * |clash.shot|
            && r.enemies == clash.enemies && r.bullets == clash.bullets)
      && (Rammed(g.player, clash.enemies) && g.lives > 1 ==>
            && r.lives == g.lives - 1
            && r.score == g.score + HitScore * |clash.shot|
            && r.bullets == clash.bullets
            && r.enemies == EnemyPlayerPass(g.player, clash.enemies).enemies
            && (forall e :: e in r.enemies <==> e in clash.enemies && !Touches(g.player, e)))
      && (Rammed(g.player, clash.enemies) && g.lives <= 1 ==>
            && r.lives == StartLives && r.score == 0
            && r.enemies == [] && r.bullets == [])
  {
    var clash := BulletEnemyPass(g.enemies, g.bullets);
    PlayerPassKeeps(g.player, clash.enemies);
    JudgeIff(g, clash.enemies);
  }

  /** The steps before the collisions, in isolation: counters untouched, particles updated,
      and the enemies and timer the spawn step left, the enemies minus any
      that fell off. */
  lemma AdvanceFields(g: Session, keys: Keys, dt: real, c: Chance)
    ensures var a := Advance(g, keys, dt, c);
      var spawned := Spawn(g.spawnTimer, g.score, g.enemies, dt, c.seed);
      && a.score == g.score && a.lives == g.lives
      && a.particles == UpdateParticles(g.particles, dt)
      && a.spawnTimer == spawned.timer
      && |a.enemies| <= |spawned.enemies|
  {
  }

  /** A tick costs at most one life, unless it is the one that restarts
      the session. */
  lemma TickLives(g: Session, keys: Keys, dt: real, c: Chance)
    ensures var r := Tick(g, keys, dt, c);
      || r.lives == g.lives
      || r.lives == g.lives - 1
      || (r.lives == StartLives && r.score == 0 && r.enemies == [] && r.bullets == [])
  {
    ResolveOutcome(Advance(g, keys, dt, c), c.spark);
  }

  /** Score only grows, by the hit score per enemy shot this tick, except
      on a restart, when an enemy reaches the player at the last life. */
  lemma TickScore(g: Session, keys: Keys, dt: real, c: Chance)
    ensures var a := Advance(g, keys, dt, c);
      var clash := BulletEnemyPass(a.enemies, a.bullets);
      var r := Tick(g, keys, dt, c);
      if Rammed(a.player, clash.enemies) && g.lives <= 1 then r.score == 0
      else r.score == g.score + HitScore * |clash.shot|
  {
    AdvanceFields(g, keys, dt, c);
    ResolveOutcome(Advance(g, keys, dt, c), c.spark);
  }

  /** A tick adds at most one enemy, and none when the spawn timer is not
      yet due. */
  lemma TickSpawnsAtMostOne(g: Session, keys: Keys, dt: real, c: Chance)
    ensures |Tick(g, keys, dt, c).enemies| <= |g.enemies| + 1
    ensures g.spawnTimer + dt < SpawnInterval(g.score) ==>
      |Tick(g, keys, dt, c).enemies| <= |g.enemies|
  {
    var a := Advance(g, keys, dt, c);
    var clash := BulletEnemyPass(a.enemies, a.bullets);
    var ram := EnemyPlayerPass(a.player, clash.enemies);
  }

  /** The spawn timer after a tick: back to zero when an enemy was due,
      otherwise advanced by the frame time. */
  lemma TickSpawnTimer(g: Session, keys: Keys, dt: real, c: Chance)
    ensures g.spawnTimer + dt >= SpawnInterval(g.score) ==> Tick(g, keys, dt, c).spawnTimer == 0.0
    ensures g.spawnTimer + dt < SpawnInterval(g.score) ==>
      Tick(g, keys, dt, c).spawnTimer == g.spawnTimer + dt
  {
    var a := Advance(g, keys, dt, c);
    AdvanceFields(g, keys, dt, c);
    assert Tick(g, keys, dt, c) == Resolve(a, c.spark);
    ResolveSpawnTimer(a, c.spark);
  }

  lemma ResolveSpawnTimer(g: Session, spark: (nat, nat) -> Spark)
    ensures Resolve(g, spark).spawnTimer == g.spawnTimer
  {
  }

  /** Particles that survive their update keep their order ahead of the
      bursts this tick adds, and every added particle is fresh. */
  lemma TickParticles(g: Session, keys: Keys, dt: real, c: Chance)
    ensures var kept := UpdateParticles(g.particles, dt);
      var r := Tick(g, keys, dt, c);
      && |kept| <= |r.particles|
      && r.particles[..|kept|] == kept
      && forall j :: |kept| <= j < |r.particles| ==> r.particles[j].age == 0.0 && r.particles[j].alpha == 255
  {
    var a := Advance(g, keys, dt, c);
    AdvanceFields(g, keys, dt, c);
    ResolveParticles(a, c.spark);
    AppendFresh(a.particles, Explosions(Blasts(a), c.spark));
  }

  lemma AppendFresh(ps: seq<Particle>, xs: seq<Particle>)
    requires forall j :: 0 <= j < |xs| ==> xs[j].age == 0.0 && xs[j].alpha == 255
    ensures (ps + xs)[..|ps|] == ps
    ensures forall j :: |ps| <= j < |ps + xs| ==> (ps + xs)[j].age == 0.0 && (ps + xs)[j].alpha == 255
  {
    forall j | |ps| <= j < |ps + xs|
      ensures (ps + xs)[j] == xs[j - |ps|]
    {
    }
  }

  lemma ResolveKeepsPlayer(g: Session, spark: (nat, nat) -> Spark)
    ensures Resolve(g, spark).player == g.player
  {
  }

  /** With a faithful `normalize`, a tick moves an on-screen ship by at most
      `PLAYER_SPEED * dt` along each axis, diagonals included. */
  lemma TickSpeedLimit(g: Session, keys: Keys, dt: real, c: Chance)
    requires Normalizes(c.normalize) && OnScreen(g.player.pos) && dt >= 0.0
    ensures Abs(Tick(g, keys, dt, c).player.pos.x - g.player.pos.x) <= PlayerSpeed * dt
    ensures Abs(Tick(g, keys, dt, c).player.pos.y - g.player.pos.y) <= PlayerSpeed * dt
  {
    var u := Direction(keys, c);
    DirectionIsUnit(keys, c);
    PlayerSpeedLimit(g.player, Move(keys), u, dt);
    var a := Advance(g, keys, dt, c);
    assert a.player.pos == UpdatePlayer(g.player, u, dt).pos;
    ResolveKeepsPlayer(a, c.spark);
  }

  /** A paused frame changes nothing but the pause and run flags; an
      unpaused one runs exactly one tick. */
  lemma FramePaused(g: Session, evs: seq<Event>, keys: Keys, dt: real, c: Chance)
    ensures var paused := g.paused != (PauseToggles(evs) % 2 == 1);
      var running := g.running && !Stops(evs);
      && (paused ==> Frame(g, evs, keys, dt, c) == g.(paused := true, running := running))
      && (!paused ==>
            Frame(g, evs, keys, dt, c) == Tick(g.(paused := false, running := running), keys, dt, c))
  {
    HandleEventsEffect(g, evs);
  }
}

=== FILE: scenarios.dfy ===
/** Worked cases of the rules, on concrete values. */
module Scenarios {
  import opened Config
  import opened Geometry
  import opened Groups
  import opened Sprites
  import opened Starfield
  import opened Manager
  import opened Collide
  import opened Game
  import opened Outcomes

  const Up: Vec := Vec(0.0, -BulletSpeed)

  /** The first volley of a session leaves from 10 px either side of the
      ship's top middle, 18 px above its centre. */
  lemma FirstVolley(stars: seq<Star>)
    ensures var shot := Fire(Start(stars).player, true);
      && shot.bullets == [Bullet(Vec(440.0, 482.0), Up), Bullet(Vec(460.0, 482.0), Up)]
      && shot.player.fireTimer == FireCooldown
  {
  }

  /** Two stacked enemies over one bullet: the first one in group order is
      shot and takes the bullet with it, so the second survives. */
  lemma OneBulletOneKill()
    ensures var front := Enemy(Vec(100.0, 100.0), 80.0, 0.0, 10.0);
      var back := Enemy(Vec(100.0, 110.0), 80.0, 0.0, 10.0);
      var b := Bullet(Vec(100.0, 105.0), Up);
      && Hits(front, b) && Hits(back, b)
      && BulletEnemyPass([front, back], [b]) == Clash([back], [], [front])
  {
    var front := Enemy(Vec(100.0, 100.0), 80.0, 0.0, 10.0);
    var back := Enemy(Vec(100.0, 110.0), 80.0, 0.0, 10.0);
    var b := Bullet(Vec(100.0, 105.0), Up);
    assert Hits(front, b);
    assert !Misses(Hits, front)(b);
    assert [b][1..] == [];
    assert Filter([b], Misses(Hits, front)) == [];
    assert [front, back][1..] == [back];
    assert Filter([], Misses(Hits, back)) == [];
  }

  /** The bullet kill line is on the bottom edge: a bullet centred at
      y = -25 is still in flight, one centred at y = -28 is gone. */
  lemma BulletKillLine()
    ensures !BulletGone(Bullet(Vec(0.0, -25.0), Up))
    ensures BulletGone(Bullet(Vec(0.0, -28.0), Up))
    ensures UpdateBullets([Bullet(Vec(0.0, -25.0), Up)], 0.0) == [Bullet(Vec(0.0, -25.0), Up)]
  {
    var b := Bullet(Vec(0.0, -25.0), Up);
    assert MoveBullet(b, 0.0) == b;
    assert MoveBullet(b, 0.0) in UpdateBullets([b], 0.0);
  }

  /** Halfway through its life a particle's fade is truncated: 127, not 128. */
  lemma HalfwayAlpha()
    ensures Alpha(0.25, 0.5) == 127
  {
    assert 255.0 * (1.0 - 0.25 / 0.5) == 127.5;
  }

  /** Enemies arrive once a second at the start and every 0.35 s from a
      score of 35 on. */
  lemma SpawnPace()
    ensures SpawnInterval(0) == 1.0
    ensures SpawnInterval(10) == 0.8
    ensures SpawnInterval(100) == 0.35
  {
  }

  /** Two pause presses in one frame cancel out. */
  lemma DoublePause(g: Session)
    ensures HandleEvents(g, [KeyDown(PauseKey), KeyDown(PauseKey)]) == g
  {
    HandleEventsEffect(g, [KeyDown(PauseKey), KeyDown(PauseKey)]);
    assert PauseToggles([KeyDown(PauseKey), KeyDown(PauseKey)]) == 2;
    assert !Stops([KeyDown(PauseKey), KeyDown(PauseKey)]);
  }

  /** An enemy on the ship at the last life restarts the session. */
  lemma LastLifeRestarts(g: Session, spark: (nat, nat) -> Spark)
    requires g.lives == 1 && g.bullets == []
    requires g.enemies == [Enemy(g.player.pos, 80.0, 0.0, 10.0)]
    ensures var r := Resolve(g, spark);
      r.lives == StartLives && r.score == 0 && r.enemies == [] && r.bullets == []
  {
    var e := g.enemies[0];
    assert BulletEnemyPass(g.enemies, []) == Clash(g.enemies, [], []) by {
      assert Filter([], Misses(Hits, e)) == [];
      assert g.enemies[1..] == [];
      assert Sweep(g.enemies[1..], [], Hits) == Clash([], [], []);
      assert Sweep(g.enemies, [], Hits) == Clash([e], [], []);
    }
    assert Touches(g.player, e);
    assert Rammed(g.player, g.enemies);
    ResolveOutcome(g, spark);
  }
}

=== FILE: sprites.dfy ===
/** The four kinds of gameplay sprites -- player, bullet, enemy and
    particle -- with their per-frame update rules. */
module Sprites {
  import opened Config
  import opened Util
  import opened Geometry
  import opened Groups

  type PosReal = r: real | r > 0.0 witness 1.0

  // ---------------------------------------------------------------- Player

  /** Player ship. Its rectangle keeps the 48x36 size of the initial image
      and is centred on `pos` after every update. */
  datatype Player = Player(pos: Vec, vel: Vec, fireTimer: real)

  function PlayerRect(p: Player): Rect { Centered(p.pos, PlayerW, PlayerH) }

  /** The region the ship's centre is clamped to. */
  predicate OnScreen(pos: Vec)
  {
    && PlayerW / 2.0 <= pos.x <= Width - PlayerW / 2.0
    && PlayerH / 2.0 <= pos.y <= Height - PlayerH / 2.0
  }

  /** Snapshot of the held keys; each flag is the OR of the arrow key and
      its letter twin (LEFT/a, RIGHT/d, UP/w, DOWN/s, SPACE/z). */
  datatype Keys = Keys(left: bool, right: bool, up: bool, down: bool, fire: bool)

  function Unit(b: bool): real { if b then 1.0 else 0.0 }

  /** The raw movement vector, before normalisation. */
  function Move(k: Keys): Vec
  {
    Vec(Unit(k.right) - Unit(k.left), Unit(k.down) - Unit(k.up))
  }

  /** `u` is the direction the ship moves in for the raw vector `m`. For a
      non-zero `m` that is what `Vector2.normalize` returns, the unit vector
      pointing the same way as `m`. For zero, the ship's update never calls
      `normalize` (it would raise an error), and the vector stays zero. */
  predicate IsUnitOf(m: Vec, u: Vec)
  {
    if m.LengthSquared() == 0.0 then u == Vec(0.0, 0.0)
    else
      && u.LengthSquared() == 1.0
      && u.x * m.y == u.y * m.x
      && u.x * m.x + u.y * m.y > 0.0
  }

  /** Along a single axis normalising changes nothing. */
  lemma UnitOfAxis(k: Keys, u: Vec)
    requires IsUnitOf(Move(k), u)
    requires Move(k).x == 0.0 || Move(k).y == 0.0
    ensures u == Move(k)
  {
    var m := Move(k);
    assert m.x == 0.0 || m.x == 1.0 || m.x == -1.0;
    assert m.y == 0.0 || m.y == 1.0 || m.y == -1.0;
    if m.x == 0.0 && m.y != 0.0 {
      assert m.LengthSquared() == 1.0;
      OnAxis(u.x, u.y, m.y);
    } else if m.y == 0.0 && m.x != 0.0 {
      assert m.LengthSquared() == 1.0;
      OnAxis(u.y, u.x, m.x);
    } else {
      assert m == Vec(0.0, 0.0);
    }
  }

  /** The arithmetic of `UnitOfAxis`, for the axis `m` points along. */
  lemma OnAxis(across: real, along: real, m: real)
    requires m == 1.0 || m == -1.0
    requires across * across + along * along == 1.0
    requires across * m == along * 0.0 || along * 0.0 == across * m
    requires across * 0.0 + along * m > 0.0 || along * m + across * 0.0 > 0.0
    ensures across == 0.0 && along == m
  {
    assert across * m == 0.0;
    assert across == 0.0;
    assert along * along == 1.0;
    SquareOne(along);
  }

  /** `Player.update`: move at `PlayerSpeed` along `u`, clamp the centre to
      the screen, count the fire cooldown down to zero. */
  function UpdatePlayer(p: Player, u: Vec, dt: real): (r: Player)
    ensures OnScreen(r.pos)
    ensures r.fireTimer >= 0.0
    ensures CanShoot(r) <==> p.fireTimer <= dt
    ensures p.fireTimer >= dt ==> r.fireTimer == p.fireTimer - dt
  {
    var vel := u.Scale(PlayerSpeed);
    var moved := p.pos.Plus(vel.Scale(dt));
    Player(
      Vec(Clamp(moved.x, PlayerW / 2.0, Width - PlayerW / 2.0),
          Clamp(moved.y, PlayerH / 2.0, Height - PlayerH / 2.0)),
      vel,
      Max(0.0, p.fireTimer - dt))
  }

  /** Each coordinate of the new centre is the old one moved along its own
      axis and clamped to that axis's range, independently of the other. */
  lemma PlayerClampsEachAxis(p: Player, u: Vec, dt: real)
    ensures UpdatePlayer(p, u, dt).pos.x ==
      Clamp(p.pos.x + dt * (PlayerSpeed * u.x), PlayerW / 2.0, Width - PlayerW / 2.0)
    ensures UpdatePlayer(p, u, dt).pos.y ==
      Clamp(p.pos.y + dt * (PlayerSpeed * u.y), PlayerH / 2.0, Height - PlayerH / 2.0)
  {
    var step := u.Scale(PlayerSpeed).Scale(dt);
    assert step == Vec(dt * (PlayerSpeed * u.x), dt * (PlayerSpeed * u.y));
    assert UpdatePlayer(p, u, dt).pos == Vec(
      Clamp(p.pos.x + step.x, PlayerW / 2.0, Width - PlayerW / 2.0),
      Clamp(p.pos.y + step.y, PlayerH / 2.0, Height - PlayerH / 2.0));
  }

  /** Clamping only acts at the border: a step that stays on screen is
      taken in full. */
  lemma PlayerMovesFreely(p: Player, u: Vec, dt: real)
    requires OnScreen(p.pos.Plus(u.Scale(PlayerSpeed).Scale(dt)))
    ensures UpdatePlayer(p, u, dt).pos == p.pos.Plus(u.Scale(PlayerSpeed).Scale(dt))
  {
  }

  /** Each axis is clamped on its own: pushed diagonally into the right
      wall, the ship stays at the wall and still moves up. */
  lemma PlayerSlidesAlongWall(p: Player, u: Vec, dt: real)
    requires OnScreen(p.pos) && p.pos.x == Width - PlayerW / 2.0
    requires u.x >= 0.0 && u.y < 0.0 && dt > 0.0
    requires p.pos.y + dt * (PlayerSpeed * u.y) >= PlayerH / 2.0
    ensures UpdatePlayer(p, u, dt).pos.x == p.pos.x
    ensures UpdatePlayer(p, u, dt).pos.y == p.pos.y + dt * (PlayerSpeed * u.y) < p.pos.y
  {
    ProductNonNeg(dt, PlayerSpeed * u.x);
    ProductNeg(dt, PlayerSpeed * u.y);
  }

  /** A positive time keeps the sign of a velocity component. */
  lemma ProductNonNeg(dt: real, v: real)
    requires dt > 0.0 && v >= 0.0
    ensures dt * v >= 0.0
  {
  }

  lemma ProductNeg(dt: real, v: real)
    requires dt > 0.0 && v < 0.0
    ensures dt * v < 0.0
  {
  }

  /** Every component of a normalised direction lies in [-1, 1]. */
  lemma UnitBounded(m: Vec, u: Vec)
    requires IsUnitOf(m, u)
    ensures -1.0 <= u.x <= 1.0 && -1.0 <= u.y <= 1.0
  {
    if m.LengthSquared() != 0.0 {
      UnitComponent(u.x, u.y);
      UnitComponent(u.y, u.x);
    }
  }

  /** A normalised direction and a non-negative frame time move the ship by
      at most `PlayerSpeed * dt` along each axis; clamping only shortens it. */
  lemma PlayerSpeedLimit(p: Player, m: Vec, u: Vec, dt: real)
    requires OnScreen(p.pos) && IsUnitOf(m, u) && dt >= 0.0
    ensures Abs(UpdatePlayer(p, u, dt).pos.x - p.pos.x) <= PlayerSpeed * dt
    ensures Abs(UpdatePlayer(p, u, dt).pos.y - p.pos.y) <= PlayerSpeed * dt
  {
    UnitBounded(m, u);
    StepLimitX(p, u, dt);
    StepLimitY(p, u, dt);
  }

  lemma StepLimitX(p: Player, u: Vec, dt: real)
    requires OnScreen(p.pos) && dt >= 0.0 && -1.0 <= u.x <= 1.0
    ensures Abs(UpdatePlayer(p, u, dt).pos.x - p.pos.x) <= PlayerSpeed * dt
  {
    ClampedStep(p.pos.x, PlayerW / 2.0, Width - PlayerW / 2.0, u.x, PlayerSpeed, dt);
  }

  lemma StepLimitY(p: Player, u: Vec, dt: real)
    requires OnScreen(p.pos) && dt >= 0.0 && -1.0 <= u.y <= 1.0
    ensures Abs(UpdatePlayer(p, u, dt).pos.y - p.pos.y) <= PlayerSpeed * dt
  {
    ClampedStep(p.pos.y, PlayerH / 2.0, Height - PlayerH / 2.0, u.y, PlayerSpeed, dt);
  }

  predicate CanShoot(p: Player) { p.fireTimer <= 0.0 }

  /** The result of the shooting step: the player and the bullets it added. */
  datatype Shot = Shot(player: Player, bullets: seq<Bullet>)

  /** The pair of bullets fired from the top middle of the ship. */
  function Volley(p: Player): seq<Bullet>
  {
    var muzzle := PlayerRect(p).MidTop();
    [NewBullet(muzzle.Minus(Vec(MuzzleOffset, 0.0))),
     NewBullet(muzzle.Plus(Vec(MuzzleOffset, 0.0)))]
  }

  /** The shooting step of the frame: with the fire key held and the
      cooldown run out, two bullets and a fresh cooldown. */
  function Fire(p: Player, trigger: bool): (r: Shot)
    ensures r.player.pos == p.pos && r.player.vel == p.vel
    ensures trigger && CanShoot(p) ==>
      && r.player.fireTimer == FireCooldown
      && !CanShoot(r.player)
      && |r.bullets| == 2
      && r.bullets[0].pos == Vec(p.pos.x - MuzzleOffset, p.pos.y - PlayerH / 2.0)
      && r.bullets[1].pos == Vec(p.pos.x + MuzzleOffset, p.pos.y - PlayerH / 2.0)
      && r.bullets[0].vel == r.bullets[1].vel == Vec(0.0, -BulletSpeed)
    ensures !(trigger && CanShoot(p)) ==> r == Shot(p, [])
  {
    if trigger && CanShoot(p) then Shot(p.(fireTimer := FireCooldown), Volley(p))
    else Shot(p, [])
  }

  // ---------------------------------------------------------------- Bullet

  datatype Bullet = Bullet(pos: Vec, vel: Vec)

  function NewBullet(at: Vec): Bullet { Bullet(at, Vec(0.0, -BulletSpeed)) }

  function BulletRect(b: Bullet): Rect { Centered(b.pos, BulletW, BulletH) }

  function MoveBullet(b: Bullet, dt: real): Bullet
  {
    b.(pos := b.pos.Plus(b.vel.Scale(dt)))
  }

  /** The kill test of `Bullet.update`, on the rectangle's bottom edge. */
  predicate BulletGone(b: Bullet) { BulletRect(b).Bottom() < -20.0 }

  /** The test is on the bottom edge, half a bullet below the centre. */
  lemma BulletGoneByCentre(b: Bullet)
    ensures BulletGone(b) <==> b.pos.y < -20.0 - BulletH / 2.0
  {
  }

  /** `bullet_group.update(dt)`. */
  function UpdateBullets(bs: seq<Bullet>, dt: real): (r: seq<Bullet>)
    ensures |r| <= |bs|
    ensures forall j :: 0 <= j < |r| ==>
      !BulletGone(r[j]) && exists i :: 0 <= i < |bs| && r[j] == MoveBullet(bs[i], dt)
    ensures forall i :: 0 <= i < |bs| && !BulletGone(MoveBullet(bs[i], dt)) ==>
      MoveBullet(bs[i], dt) in r
  {
    UpdateGroup(bs, b => MoveBullet(b, dt), BulletGone)
  }

  /** Bullets update one by one, keeping their group order. */
  lemma UpdateBulletsOrder(a: seq<Bullet>, b: seq<Bullet>, dt: real)
    ensures UpdateBullets(a + b, dt) == UpdateBullets(a, dt) + UpdateBullets(b, dt)
    ensures forall x ::
      UpdateBullets([x], dt) == if BulletGone(MoveBullet(x, dt)) then [] else [MoveBullet(x, dt)]
  {
    UpdateGroupOrder(a, b, x => MoveBullet(x, dt), BulletGone);
  }

  // ----------------------------------------------------------------- Enemy

  /** An enemy; `phase` and `amp` drive its sideways wobble. */
  datatype Enemy = Enemy(pos: Vec, speed: real, phase: real, amp: real)

  function EnemyRect(e: Enemy): Rect { Centered(e.pos, EnemyW, EnemyH) }

  /** `Enemy.update` with `sine` in place of `math.sin`. */
  function MoveEnemy(e: Enemy, dt: real, sine: real -> real): Enemy
  {
    var phase := e.phase + dt * 4.0;
    var wobble := sine(phase) * e.amp;
    e.(pos := e.pos.Plus(Vec(wobble * dt, e.speed * dt)), phase := phase)
  }

  /** An enemy falls by exactly `speed * dt` and, with a sine bounded by one,
      drifts sideways by at most `amp * dt`. */
  lemma EnemyDrift(e: Enemy, dt: real, sine: real -> real)
    requires dt >= 0.0 && e.amp >= 0.0
    requires forall t :: -1.0 <= sine(t) <= 1.0
    ensures MoveEnemy(e, dt, sine).pos.y == e.pos.y + e.speed * dt
    ensures Abs(MoveEnemy(e, dt, sine).pos.x - e.pos.x) <= e.amp * dt
    ensures MoveEnemy(e, dt, sine).speed == e.speed && MoveEnemy(e, dt, sine).amp == e.amp
  {
    var s := sine(e.phase + dt * 4.0);
    var c := e.amp * dt;
    var d := (s * e.amp) * dt;
    assert d == s * c;
    ScaleBound(s, c);
    assert MoveEnemy(e, dt, sine).pos.x == e.pos.x + d;
  }

  /** The kill test of `Enemy.update`, on the rectangle's top edge. */
  predicate EnemyGone(e: Enemy) { EnemyRect(e).top > Height + 40.0 }

  /** `enemy_group.update(dt)`. */
  function UpdateEnemies(es: seq<Enemy>, dt: real, sine: real -> real): (r: seq<Enemy>)
    ensures |r| <= |es|
    ensures forall j :: 0 <= j < |r| ==>
      !EnemyGone(r[j]) && exists i :: 0 <= i < |es| && r[j] == MoveEnemy(es[i], dt, sine)
    ensures forall i :: 0 <= i < |es| && !EnemyGone(MoveEnemy(es[i], dt, sine)) ==>
      MoveEnemy(es[i], dt, sine) in r
  {
    UpdateGroup(es, e => MoveEnemy(e, dt, sine), EnemyGone)
  }

  /** Enemies update one by one, keeping their group order. */
  lemma UpdateEnemiesOrder(a: seq<Enemy>, b: seq<Enemy>, dt: real, sine: real -> real)
    ensures UpdateEnemies(a + b, dt, sine) == UpdateEnemies(a, dt, sine) + UpdateEnemies(b, dt, sine)
    ensures forall x ::
      UpdateEnemies([x], dt, sine) == if EnemyGone(MoveEnemy(x, dt, sine)) then [] else [MoveEnemy(x, dt, sine)]
  {
    UpdateGroupOrder(a, b, x => MoveEnemy(x, dt, sine), EnemyGone);
  }

  // -------------------------------------------------------------- Particle

  /** An explosion particle; `alpha` is the fade last set by an update. */
  datatype Particle = Particle(pos: Vec, vel: Vec, age: real, lifetime: PosReal, alpha: int)

  /** The fade: the unexpired fraction of the lifetime scaled to 255 and
      truncated to an integer. */
  function Alpha(age: real, lifetime: PosReal): (a: int)
    ensures 0.0 <= age < lifetime ==> 0 <= a <= 255
    ensures age == 0.0 ==> a == 255
  {
    FractionBounds(age, lifetime);
    Trunc(255.0 * (1.0 - age / lifetime))
  }

  /** An age inside the lifetime is a fraction of it in [0, 1). */
  lemma FractionBounds(age: real, lifetime: PosReal)
    ensures 0.0 <= age < lifetime ==> 0.0 <= age / lifetime < 1.0
    ensures age == 0.0 ==> age / lifetime == 0.0
  {
    if 0.0 <= age < lifetime {
      RatioBounds(age, lifetime);
    }
  }

  lemma RatioBounds(a: real, l: real)
    requires 0.0 <= a < l
    ensures 0.0 <= a / l < 1.0
  {
  }

  /** The fade never brightens as a particle ages. */
  lemma AlphaFades(a1: real, a2: real, lifetime: PosReal)
    requires 0.0 <= a1 <= a2 < lifetime
    ensures Alpha(a2, lifetime) <= Alpha(a1, lifetime)
  {
    assert a1 / lifetime <= a2 / lifetime;
  }

  predicate ParticleGone(p: Particle) { p.age >= p.lifetime }

  /** `Particle.update`: age first; an expired particle is killed without
      moving; a live one moves, slows by `Drag` and refreshes its fade. */
  function StepParticle(p: Particle, dt: real): (r: Particle)
    ensures r.age == p.age + dt && r.lifetime == p.lifetime
    ensures ParticleGone(r) <==> p.age + dt >= p.lifetime
    ensures !ParticleGone(r) && 0.0 <= r.age ==> 0 <= r.alpha <= 255
  {
    var age := p.age + dt;
    if age >= p.lifetime then p.(age := age)
    else Particle(p.pos.Plus(p.vel.Scale(dt)), p.vel.Scale(Drag), age, p.lifetime, Alpha(age, p.lifetime))
  }

  /** `particle_group.update(dt)`. */
  function UpdateParticles(ps: seq<Particle>, dt: real): (r: seq<Particle>)
    ensures |r| <= |ps|
    ensures forall j :: 0 <= j < |r| ==>
      !ParticleGone(r[j]) && exists i :: 0 <= i < |ps| && r[j] == StepParticle(ps[i], dt)
    ensures forall i :: 0 <= i < |ps| && ps[i].age + dt < ps[i].lifetime ==>
      StepParticle(ps[i], dt) in r
  {
    UpdateGroup(ps, p => StepParticle(p, dt), ParticleGone)
  }

  /** Particles update one by one, keeping their group order. */
  lemma UpdateParticlesOrder(a: seq<Particle>, b: seq<Particle>, dt: real)
    ensures UpdateParticles(a + b, dt) == UpdateParticles(a, dt) + UpdateParticles(b, dt)
    ensures forall x ::
      UpdateParticles([x], dt) == if ParticleGone(StepParticle(x, dt)) then [] else [StepParticle(x, dt)]
  {
    UpdateGroupOrder(a, b, x => StepParticle(x, dt), ParticleGone);
  }
}

=== FILE: starfield.dfy ===
/** The parallax starfield: a cosmetic layer that never interacts with the
    gameplay sprites. */
module Starfield {
  import opened Config
  import opened Geometry

  /** A background star; layer 0 is near (fast), layer 2 far (slow). */
  datatype Star = Star(pos: Vec, size: int, layer: int)

  /** Fall speed of a layer at speed factor one, in pixels per second. */
  function FallRate(layer: int): real { 20.0 + (layer as real) * 40.0 }

  /** The ranges `create_starfield` draws a star from. */
  predicate Sown(s: Star)
  {
    && 0.0 <= s.pos.x <= Width && 0.0 <= s.pos.y <= Height
    && 0 <= s.layer <= 2
    && (if s.layer > 0 then 1 <= s.size <= 3 else 2 <= s.size <= 4)
  }

  /** What stays true of a star for the whole session: a known layer and
      size, and a position inside the band stars fall and wrap through. */
  predicate StarOk(s: Star)
  {
    && 0.0 <= s.pos.x <= Width && -10.0 <= s.pos.y <= Height + 10.0
    && 0 <= s.layer <= 2
    && (if s.layer > 0 then 1 <= s.size <= 3 else 2 <= s.size <= 4)
  }

  lemma SownIsOk(s: Star)
    requires Sown(s)
    ensures StarOk(s)
  {
  }

  /** `Star.update`, with `freshX` standing for the `random.uniform(0, WIDTH)`
      draw made when the star wraps. */
  function UpdateStar(s: Star, dt: real, speedFactor: real, freshX: real): (r: Star)
    ensures r.size == s.size && r.layer == s.layer
    ensures r.pos.y <= Height + 10.0
  {
    var y := s.pos.y + FallRate(s.layer) * dt * speedFactor;
    if y > Height + 10.0 then s.(pos := Vec(freshX, -10.0))
    else s.(pos := Vec(s.pos.x, y))
  }

  /** A star either falls by its layer's rate scaled by the frame time and
      the speed factor, keeping its column, or -- once past the bottom band
      -- reappears at the top at the fresh column. */
  lemma StarFallsOrWraps(s: Star, dt: real, speedFactor: real, freshX: real)
    ensures var y := s.pos.y + FallRate(s.layer) * dt * speedFactor;
      && (y > Height + 10.0 ==> UpdateStar(s, dt, speedFactor, freshX).pos == Vec(freshX, -10.0))
      && (y <= Height + 10.0 ==> UpdateStar(s, dt, speedFactor, freshX).pos == Vec(s.pos.x, y))
  {
  }

  /** A star stays in its band as long as time runs forward, the speed
      factor is not negative and the fresh column is on screen. */
  lemma UpdateStarOk(s: Star, dt: real, speedFactor: real, freshX: real)
    requires StarOk(s) && dt >= 0.0 && speedFactor >= 0.0 && 0.0 <= freshX <= Width
    ensures StarOk(UpdateStar(s, dt, speedFactor, freshX))
  {
    var rate := FallRate(s.layer);
    assert rate >= 0.0;
    assert rate * dt >= 0.0;
    assert rate * dt * speedFactor >= 0.0;
  }

  /** The star loop of the frame; star `i` takes its fresh column from `freshX(i)`. */
  function UpdateStars(stars: seq<Star>, dt: real, speedFactor: real, freshX: nat -> real): (r: seq<Star>)
    ensures |r| == |stars|
    ensures forall i :: 0 <= i < |r| ==> r[i] == UpdateStar(stars[i], dt, speedFactor, freshX(i))
  {
    seq(|stars|, i requires 0 <= i < |stars| => UpdateStar(stars[i], dt, speedFactor, freshX(i)))
  }
}

=== FILE: util.dfy ===
/** The arithmetic helpers the game logic leans on: Python's `clamp`,
    `max`, `min` and the truncating `int()` conversion. */
module Util {

  function Max(a: real, b: real): real { if a >= b then a else b }

  function Min(a: real, b: real): real { if a <= b then a else b }

  /** `clamp`: `v` cut down to `b`, then raised to `a`. */
  function Clamp(v: real, a: real, b: real): (r: real)
    ensures a <= r
    ensures a <= b ==> r <= b
    ensures a <= v <= b ==> r == v
    ensures a <= b && v < a ==> r == a
    ensures a <= b && b < v ==> r == b
    ensures b < a ==> r == a
  {
    Max(a, Min(b, v))
  }

  /** Python's `int()` on a float: rounds toward zero. */
  function Trunc(x: real): (n: int)
    ensures 0.0 <= x ==> 0 <= n && n as real <= x < n as real + 1.0
    ensures x < 0.0 ==> n <= 0 && n as real - 1.0 < x <= n as real
  {
    if x >= 0.0 then x.Floor else -((-x).Floor)
  }

  /** A factor between -1 and 1 does not enlarge a non-negative quantity. */
  lemma ScaleBound(s: real, c: real)
    requires -1.0 <= s <= 1.0 && c >= 0.0
    ensures -c <= s * c <= c
  {
  }

  /** A component of a unit vector lies between -1 and 1. */
  lemma UnitComponent(a: real, b: real)
    requires a * a + b * b == 1.0
    ensures -1.0 <= a <= 1.0
  {
  }

  lemma SquareOne(a: real)
    requires a * a == 1.0
    ensures a == 1.0 || a == -1.0
  {
    assert (a - 1.0) * (a + 1.0) == 0.0;
  }

  function Abs(x: real): real { if x < 0.0 then -x else x }

  /** One clamped step of length at most `k * dt` from a point inside the
      interval moves it by at most `k * dt`. */
  lemma ClampedStep(x: real, a: real, b: real, s: real, k: real, dt: real)
    requires a <= x <= b && -1.0 <= s <= 1.0 && k >= 0.0 && dt >= 0.0
    ensures Abs(Clamp(x + dt * (k * s), a, b) - x) <= k * dt
  {
    var c := k * dt;
    var d := dt * (k * s);
    assert d == s * c;
    ScaleBound(s, c);
    var v := x + d;
    if v < a {
      assert Clamp(v, a, b) == a;
    } else if v > b {
      assert Clamp(v, a, b) == b;
    } else {
      assert Clamp(v, a, b) == v;
    }
  }
}
